=== FILE: README.md ===
# The Nest — a Dafny model of its page logic

The Nest is a browser study planner for a graduate student. It has these pages:

- a PIN lock screen (`app.js`);
- a dashboard with time tracking, a checklist and a mini calendar (`dashboard.js`);
- a schedule with a month view and an upcoming list (`schedule.js`);
- a psychology quiz (`quiz.js`);
- a notes editor (`notes.js`);
- a PDF upload list (`upload.js`);
- a settings page covering the theme, the PIN reset, export and clearing data (`settings.js`);
- a bridge through which another assistant queues updates that the app later applies (`api.js`).

Each page is a small stateful manager over a list held in memory. This project models each manager as a Dafny class over sequences, with one module per page. The pure parts become functions with lemmas: the filters, sorts, formatters, buckets and validity checks.

Collaborators become parameters:

- the browser's `localStorage` is a `map<string, string>` (module `Storage`);
- the IndexedDB answers are inputs (the id a write returns, or `None` when it fails);
- the clock is an instant in milliseconds or a `(year, month, day)` date, with months counted from 0 as in JavaScript;
- the user's answers to `confirm` are booleans;
- random draws are inputs.

Shared modules:

- `Base`: `Option`, `FindIndex` and a stable `Filter`.
- `Text`: JavaScript `trim`, string comparison in code-unit order, number printing and parsing, and `toLowerCase` on ASCII.
- `Sorting`: an insertion sort, proved sorted and a permutation.
- `Calendar`: proleptic Gregorian month lengths and weekdays, standing in for `new Date(y, m, d)`.
- `RelativeTime`: the minute, hour and day buckets that the notes and upload pages share.

The quiz bank keeps each question's wording (prompt, options, explanation) in a table per topic, apart from the number of options and the index of the right one, which are all the session uses. Lemmas tie each bank to its wording.

The schedule is a flat list of dated events. The only per-day query is `getEventsForDay` (schedule.js:196-203).

## Model

| member | source | states |
|---|---|---|
| Schedule.MaxId | schedule.js:396 | `Math.max(...ids, 0)` is at least 0 and at least every id, and is 0 or one of the ids |
| Schedule.NextId | schedule.js:396 | a new event's id is at least 1 and larger than every stored id |
| Schedule.CreatedShape | schedule.js:394-397 | creating appends exactly one event, last, with the fresh id and the form's fields; the earlier events are untouched |
| Schedule.UpdatedShape | schedule.js:388-393 | editing rewrites only the first event with the id, keeping its id and position; an absent id changes nothing |
| Schedule.DeletedShape | schedule.js:407-411 | deleting leaves no event with the id and every other event with its multiplicity |
| Schedule.DeletedKeepsOrder | schedule.js:411 | deleting distributes over concatenation, so kept events keep their order |
| Schedule.CreateThenDelete | schedule.js:394-411 | creating an event and then deleting its id restores the list |
| Schedule.NothingToDelete | schedule.js:411 | deleting an id no event has changes nothing |
| Schedule.TimeLeIsPreorder | schedule.js:202 | the "HH:MM" string order is total and transitive on any list |
| Schedule.DateTimeLeIsPreorder | schedule.js:258 | the date-then-time order is total and transitive on any list |
| Schedule.EventsForDay | schedule.js:196-203 | exactly the events dated on that day (each with its multiplicity), in non-decreasing time-string order |
| Schedule.Eligible | schedule.js:256-257 | exactly the events dated today or later, each with its multiplicity |
| Schedule.Upcoming | schedule.js:251-259 | the first min(20, eligible) events: all upcoming and stored, sorted by date then time, and an upcoming event left out comes no earlier than any shown |
| Schedule.ByDateAndTime | schedule.js:258 | the sort is a permutation and sorted by date then time |
| Schedule.UpcomingPrefixMembers | schedule.js:256-259 | every event of a prefix of the sorted upcoming events is upcoming and stored |
| Schedule.UpcomingPrefixEarliest | schedule.js:256-259 | an upcoming event missing from the prefix comes no earlier than any event in it |
| Schedule.Hour12 | schedule.js:318 | the displayed hour, the hour mod 12 or else 12, lies in 1..12 |
| Schedule.FormatTimeOfWellFormed | schedule.js:314-320 | for a well-formed "HH:MM": 0 shows as 12 AM, 1-11 as AM, 12 as 12 PM, 13-23 as 1-11 PM, so the 24-hour hour reads back; the minutes are copied verbatim |
| Schedule.TimeFields | schedule.js:315-316 | on a well-formed time the split on ":" yields the two hour digits and the two minute digits, and the hour parses as their value |
| Schedule.Hour12Recovers | schedule.js:317-318 | below 24, the 12-hour hour together with AM/PM gives back the hour |
| Schedule.DayCell | schedule.js:153-184 | a day cell previews the first three of the day's sorted events and counts the rest as "+N more"; today and selected flags compare the full date |
| Schedule.LeadingCells | schedule.js:147-150 | the leading cells number `count` |
| Schedule.MonthCells | schedule.js:153-184 | the month cells number `n` |
| Schedule.TrailingCells | schedule.js:187-191 | the trailing cells number `n` |
| Schedule.LeadingCellsAt | schedule.js:147-150 | leading cell i shows the previous month's day `last - count + 1 + i` |
| Schedule.MonthCellsAt | schedule.js:153-184 | month cell d-1 is day d's cell |
| Schedule.TrailingCellsAt | schedule.js:187-191 | trailing cell d-1 shows the next month's day d |
| Schedule.CalendarGridLayout | schedule.js:132-191 | the grid is `firstDay` leading cells, then `daysInMonth` month cells, then `42 - firstDay - daysInMonth` trailing cells: 42 in all |
| Schedule.GridLeadingPart | schedule.js:147-150 | the grid opens with the previous month's last `firstDay` days in order |
| Schedule.GridMonthPart | schedule.js:153-184 | after them, cell `firstDay + d - 1` is day d's cell |
| Schedule.GridTrailingPart | schedule.js:187-191 | the grid has 42 cells, closing with the next month's days from 1 |
| Schedule.RenderCalendar | schedule.js:125-194 | the three counting loops build exactly the specified grid |
| Schedule.PrevMonthCells | schedule.js:147-150 | the countdown loop yields exactly the leading cells |
| Schedule.AppendMonthDays | schedule.js:153-184 | the day loop appends exactly the month cells |
| Schedule.AppendNextMonthDays | schedule.js:187-191 | the last loop appends exactly the trailing cells |
| Schedule.ScheduleManager.constructor | schedule.js:54-72 | the stored list, or the five samples dated today when nothing is stored; not editing |
| Schedule.ScheduleManager.OpenAddModal | schedule.js:323-346 | leaves edit mode, keeps the events and returns the form defaults for the selected day |
| Schedule.ScheduleManager.OpenEditModal | schedule.js:348-364 | finds the first event with the id and enters edit mode for it; an unknown id changes nothing |
| Schedule.ScheduleManager.CloseModal | schedule.js:366-369 | leaves edit mode |
| Schedule.ScheduleManager.SaveEvent | schedule.js:371-405 | updates the edited event when the edited id is truthy, otherwise creates one; leaves edit mode |
| Schedule.ScheduleManager.DeleteEvent | schedule.js:407-419 | when editing and confirmed, removes every event with the edited id; otherwise changes nothing |
| Calendar.DaysInMonth | schedule.js:133 | a month has 28 to 31 days, and 29 exactly for February of a leap year |
| Calendar.DaysInPreviousMonth | schedule.js:134 | the previous month's length, wrapping January back to December of the year before |
| Calendar.Weekday | schedule.js:132 | `getDay` lies in 0..6 |
| Calendar.YearLength | schedule.js:132-134 | a year has 366 days when leap and 365 otherwise, and years follow one another |
| Calendar.NextMonthStart | schedule.js:132-134 | a month starts on the weekday after the previous month's last day |
| Calendar.TodayIsSunday | schedule.js:132 | the weekday formula puts 11 October 2026 on a Sunday |
| Quiz.BanksWellFormed | quiz.js:7-137 | each of the four banks holds five questions, and each `correct` indexes its options |
| Quiz.CognitiveDevWordingMatches | quiz.js:8-39 | the "cognitive-dev" bank's questions are numbered in order and count the options of their wording |
| Quiz.LifespanWordingMatches | quiz.js:40-71 | the "lifespan" bank's questions are numbered in order and count the options of their wording |
| Quiz.LearningWordingMatches | quiz.js:72-103 | the "learning" bank's questions are numbered in order and count the options of their wording |
| Quiz.SocialWordingMatches | quiz.js:104-135 | the "social" bank's questions are numbered in order and count the options of their wording |
| Quiz.Draw | quiz.js:239 | `.slice(0, 5)` keeps at most five questions drawn from the shuffle, and exactly five when there are enough |
| Quiz.DrawFromBank | quiz.js:239 | whatever the shuffle, a quiz has five well-formed questions from its topic's bank |
| Quiz.Percentage | quiz.js:324 | `Math.round(score / total * 100)` as exact round-half-up; NaN (None) exactly when there are no questions; within 0..100 |
| Quiz.RoundedBounds | quiz.js:324 | the rounded percentage lies within half a point of the exact one |
| Quiz.ResultMessage | quiz.js:327-330 | 80 and up "Excellent", 60 to 79 "Good job", anything else (NaN included) "Keep practicing" |
| Quiz.ExtremeScores | quiz.js:324-330 | full marks give 100% and "Excellent"; zero gives 0% and "Keep practicing" |
| Quiz.QuizSession.constructor | quiz.js:207-214 | no topic, no questions, cursor and score 0, not answered |
| Quiz.QuizSession.LoadQuestion | quiz.js:250-272 | opens the current question for an answer, changing nothing else |
| Quiz.QuizSession.SelectTopic | quiz.js:237-248 | a known topic starts a fresh quiz with the drawn questions and cursor and score 0; an unknown one only records the topic |
| Quiz.QuizSession.SelectAnswer | quiz.js:274-307 | ignored once answered; otherwise marks the question answered, and the score rises by one exactly when the index is right |
| Quiz.QuizSession.NextQuestion | quiz.js:309-318 | the cursor rises by one; results are produced exactly when it reaches the question count |
| Quiz.QuizSession.RestartQuiz | quiz.js:372-385 | clears the topic and questions and resets the cursor, score and answered flag |
| Quiz.QuizSession.QuitQuiz | quiz.js:366-370 | restarts only when confirmed |
| Dashboard.AddTime | dashboard.js:202-203 | a time button stores one more log: its category, 15 minutes, today |
| Dashboard.GetTimeLogs | dashboard.js:80 | exactly the logs whose date string equals the requested one, with their multiplicities |
| Dashboard.AddLog | dashboard.js:213-217 | a log of another category leaves the totals alone; a tracked one adds its minutes to the grand total |
| Dashboard.ComputeTotals | dashboard.js:211-217 | the accumulation loop computes the per-category totals |
| Dashboard.GrandTotalIsTrackedMinutes | dashboard.js:211-225 | the displayed total is the minutes of all logs in the four tracked categories |
| Dashboard.AddTimeCounts | dashboard.js:202-217 | a click adds exactly 15 minutes to its own category's total for today and nothing to the others |
| Dashboard.SplitMinutes | dashboard.js:229-230 | for m >= 0, hours * 60 + minutes = m with minutes in 0..59; negative m follows the floor and the truncating remainder |
| Dashboard.FormatMinutes | dashboard.js:228-232 | for m >= 0 the label is "⌊m/60⌋h (m mod 60)m" |
| Dashboard.FormatMinutesReadsBack | dashboard.js:228-232 | the two numbers in the label give back m as hours * 60 + minutes |
| Dashboard.CountChecked | dashboard.js:195 | the ticked count is at most the box count, equals it exactly when all are ticked, and is 0 exactly when none is |
| Dashboard.ChecklistTextReadsBack | dashboard.js:196-199 | the "ticked/all" text splits at its "/" into the ticked count and the number of boxes, the first never larger |
| Dashboard.TickOne | dashboard.js:194-199 | ticking one more box raises the ticked count by one |
| Dashboard.TwoDigits | dashboard.js:297 | `String(n).padStart(2, '0')` for n < 100 is two digits that read back as n |
| Dashboard.DashedParts | dashboard.js:297 | where the year, month and day sit in "YYYY-MM-DD" |
| Dashboard.DateStringLayout | dashboard.js:297 | a four-digit year gives a ten-character date with the month counted from 1 and the day, both padded |
| Dashboard.TodayIgnoresYear | dashboard.js:276-290 | as written, the page's cell for 11 October 2025, viewed on 11 October 2026, is highlighted; the corrected cell is not |
| Dashboard.CellsAgreeInTodaysYear | dashboard.js:289-298 | the as-written and the corrected cells differ only in the highlight, and not at all in today's year |
| Dashboard.TodayIsUnique | dashboard.js:290 | the corrected highlight marks only today's cell, and only in today's year and month |
| Dashboard.Blanks | dashboard.js:285-287 | `n` blank cells |
| Dashboard.MiniDays | dashboard.js:289-300 | one cell per day |
| Dashboard.MiniDaysAt | dashboard.js:289-300 | cell d-1 is day d's cell |
| Dashboard.BlanksThenDays | dashboard.js:285-300 | behind the blanks, the cells are the days in order |
| Dashboard.MiniDayAt | dashboard.js:285-300 | cell i past the blanks is day `i - firstDay + 1` |
| Dashboard.MiniCalendarLayout | dashboard.js:274-287 | the view has `firstDay + daysInMonth` cells, the first `firstDay` of them blank |
| Dashboard.MiniCalendarDay | dashboard.js:289-298 | each day cell carries its day and an event marker exactly on days 19, 20 and 26; it links to its "YYYY-MM-DD" date and is highlighted exactly when its day and month are today's, in any year, as written |
| Dashboard.LoadCalendar | dashboard.js:268-302 | the two loops build exactly the mini month view, with the highlight as written |
| Dashboard.FillMiniCalendar | dashboard.js:285-299 | the blank loop and the day loop together give the blanks followed by the days |
| Dashboard.BlankCells | dashboard.js:285-287 | the first loop yields exactly `firstDay` blanks |
| Dashboard.AppendDays | dashboard.js:289-299 | the second loop appends exactly the day cells, in order |
| Settings.StoredTheme | settings.js:50-53 | the stored theme, or "dark" when none or "" is stored |
| Settings.Palette | settings.js:65-84 | the seven theme variables; the light palette exactly for "light", the dark palette for any other value |
| Settings.ThemeLastWins | settings.js:65-84 | applying two themes in a row leaves the second one's palette |
| Settings.ThemeSurvivesReload | settings.js:50-63 | a changed theme is the one applied on the next load |
| Settings.ResetCodeShape | settings.js:111 | the reset code is six digits reading 100000 plus the draw |
| Settings.PinFormatAsWritten | settings.js:147 | as written, the format check passes only "====" |
| Settings.DigitPinRejected | settings.js:147-149 | as written, every four-digit PIN, the default "0315" included, is rejected |
| Settings.Export | settings.js:187-198 | the backup carries the export date, the hidden PIN marker and the stored theme (default dark); each collection is its stored text, with events, time logs and notes defaulting to "[]" and checklists and progress to "{}" |
| Settings.ExportIgnoresPin | settings.js:195-198 | the backup is the same whatever PIN is stored, and whether one is stored at all |
| Settings.Cleared | settings.js:251-261 | exactly the seven listed keys are removed; every other key keeps its value |
| Settings.ClearedFallsBack | settings.js:251-261 | after clearing, the theme reads as dark and the PIN as the default |
| Settings.NoCodeNoChange | settings.js:4-145 | before a code is sent, verification always fails with "Invalid verification code" and the PIN stays the default |
| Settings.SettingsManager.constructor | settings.js:4-15 | PIN "0315", no code, no email, and the stored theme applied |
| Settings.SettingsManager.ApplyTheme | settings.js:65-84 | the theme's palette is written over the style; nothing else changes |
| Settings.SettingsManager.LoadTheme | settings.js:50-53 | applies the stored theme |
| Settings.SettingsManager.ChangeTheme | settings.js:55-63 | stores the theme and applies it |
| Settings.SettingsManager.SendPinResetCode | settings.js:102-133 | a trimmed email that is empty or lacks "@" is refused, leaving the code unset; otherwise the code and the email are recorded |
| Settings.SettingsManager.VerifyAndChangePin | settings.js:135-176 | checks the code, then the format `/^={4}$/`, then the confirmation; the first failure leaves the PIN alone; success happens exactly for "====" typed twice and sets the PIN and the stored `nest_pin` to "====" |
| Settings.SettingsManager.VerifyAndChangePinIntended | settings.js:135-176 | the same steps with the four-digit check: every four-digit PIN typed twice with the right code becomes current and stored |
| Settings.DigitPinOnBothPages | settings.js:141-154 | with the code that was sent, a four-digit PIN is refused as written and accepted by the corrected check |
| Settings.SettingsManager.ConfirmClearData | settings.js:242-268 | clears exactly when the input is "DELETE", then removes exactly the seven keys; the removal loop keeps that as its invariant |
| LockScreen.ConfiguredPin | app.js:4-6 | the stored `nest_pin` when it is not "", else "0315" |
| LockScreen.ChangedPinIsConfigured | app.js:5 | any non-empty PIN the settings page stores is the one the lock screen asks for |
| LockScreen.StoredEqualsPinLocksOut | app.js:4-6 | once the settings page as written has stored its only accepted PIN, no run of keys matches the configured PIN |
| LockScreen.WithDigit | app.js:45-51 | appends only while the buffer has fewer than four characters |
| LockScreen.WithoutLast | app.js:53-54 | `slice(0, -1)` drops exactly the last character and keeps "" as "" |
| LockScreen.DigitKeys | app.js:22 | for one-character keys the string-range test is the digit test; every key that passes starts with a digit |
| LockScreen.BufferBounded | app.js:21-51 | typed from the keyboard, digits, Backspace and any other key mixed, the buffer never exceeds four characters |
| LockScreen.BufferStartsWithDigit | app.js:21-57 | the buffer is always empty or starts with a digit |
| LockScreen.EqualsPinLocksOut | app.js:21-29 | no run of keys types the only PIN the settings page accepts as written |
| LockScreen.TypingPin | app.js:21-51 | typing a four-digit PIN digit by digit fills the buffer with exactly that PIN |
| LockScreen.PinLock.constructor | app.js:4-13 | empty buffer, no error, locked, and the configured PIN read once |
| LockScreen.PinLock.AddDigit | app.js:45-51 | appends while there is room, which also clears the error |
| LockScreen.PinLock.Clear | app.js:53-57 | drops the last character and clears the error |
| LockScreen.PinLock.Submit | app.js:71-86 | unlocks exactly when the buffer equals the configured PIN; otherwise empties the buffer and shows the error |
| LockScreen.PinLock.HandleKey | app.js:21-29 | digit keys add and clear the error when there is room, Backspace drops a character and clears the error, Enter unlocks on a match or else empties the buffer and shows the error, any other key changes nothing |
| LockScreen.PinLock.HandleInput | app.js:32-43 | a clear action comes before enter, and enter before a digit; each gives the buffer, error line and lock state of `clear`, `submit` and `addDigit` |
| Notes.NewerFirstIsPreorder | notes.js:238 | the newest-first comparison is total and transitive |
| Notes.ByNewest | notes.js:238 | the sort keeps the same notes and puts them in non-increasing date order |
| Notes.StoredTitle | notes.js:216-219 | the trimmed title, or "Untitled Note" when that is empty |
| Notes.Replaced | notes.js:230-233 | the list with the note written at the first index holding its id, and nothing else changed; when there is none, nothing changes |
| Notes.FirstSaveAddsOnce | notes.js:226-229 | a first save adds the note to the list exactly once |
| Notes.WithoutId | notes.js:255-256 | no entry with the id remains; every other note keeps its multiplicity |
| Notes.WithoutIdKeepsOrder | notes.js:255-256 | the delete works entry by entry over a concatenation, so the kept notes stay in order |
| Notes.WordCountIsWords | notes.js:305-307 | the count is the number of whitespace-separated tokens, and 0 exactly when the trimmed content is empty |
| Notes.WordsOfTrimmed | notes.js:307 | trimming removes no word |
| Notes.TrimmedWordCount | notes.js:307 | a trimmed, non-empty text splits on white space into one piece more than its runs of white space |
| Notes.WordLabel | notes.js:308 | the label is plural for every count but 1 |
| Notes.WordLabelReadsBack | notes.js:308 | `parseInt` of the label gives back the count, and the number is followed by " word" for 1 and " words" otherwise |
| Notes.TimestampText | notes.js:272-286 | "just now" under a minute, "N min ago" with N the whole minutes under an hour, "N hours ago" with N the whole hours under a day; older edits show a locale date |
| Notes.JustSavedIsJustNow | notes.js:272-280 | a note saved at t reads "just now" for the next minute |
| RelativeTime.AgeOf | notes.js:277-283 | under 1 minute is just now, under 1 hour whole minutes (1-59), under 1 day whole hours (1-23), else older |
| RelativeTime.AgeMonotone | notes.js:277-283 | a later instant never shows a fresher bucket |
| Notes.NotesManager.constructor | notes.js:113-120 | the database's list, or an empty one when loading fails; no note open |
| Notes.NotesManager.LoadNote | notes.js:153-178 | opens the note at the first index holding the id; an unknown id changes nothing |
| Notes.NotesManager.CreateNewNote | notes.js:180-201 | opens an empty, unsaved note dated now |
| Notes.NotesManager.SaveCurrentNote | notes.js:213-247 | with no open note, nothing happens; a first save takes the returned id and adds the note once; a later save replaces its entry; the list is then sorted newest first; a failed write keeps the order |
| Notes.NotesManager.DeleteCurrentNote | notes.js:249-270 | when confirmed, removes every entry with the open note's id once the database delete succeeds, and closes the editor; an unsaved note leaves the list alone |
| Notes.SaveSortsAndKeeps | notes.js:226-238 | after a first save the list is newest first and holds the open note |
| Upload.PdfOnly | upload.js:137-139 | exactly the picked files with the PDF type or a name ending in ".pdf" in any case, with their multiplicities |
| Upload.PdfByLastFour | upload.js:137-139 | a file passes exactly when its type is PDF or the last four characters of its name are ".pdf" in any letter case |
| Upload.WithProgress | upload.js:198-202 | at most entries with the id change, and only in their progress; an unknown id changes nothing; a head entry with the id is the one that changes |
| Upload.WithProgressAtFirst | upload.js:198-202 | the entry at the first index holding the id gets the progress and nothing else changes |
| Upload.WithoutFile | upload.js:224-226 | no entry with the id remains; every other entry keeps its multiplicity |
| Upload.WithoutFileKeepsOrder | upload.js:224-226 | the delete works entry by entry over a concatenation, so the kept entries stay in order |
| Upload.TotalSizeAppend | upload.js:301 | the size total adds up over concatenation |
| Upload.DeleteShrinksTotal | upload.js:221-233 | a delete takes exactly the sizes of that id's entries off the total |
| Upload.StatsOf | upload.js:299-307 | the file count is the list length, the size is the list's size total, and the last upload is the head entry's date, present exactly when the list is not empty |
| Upload.FormatDate | upload.js:243-252 | "Just now" under a minute, "N min ago" with N the whole minutes under an hour, "N hours ago" with N the whole hours under a day; older dates show a locale date |
| Upload.UploadManager.constructor | upload.js:211-219 | the database's list, or an empty one |
| Upload.UploadManager.LoadFiles | upload.js:211-219 | a successful read replaces the list; a failed one keeps it |
| Upload.UploadManager.UpdateFileProgress | upload.js:198-209 | the list becomes `WithProgress` of the old one |
| Upload.UploadManager.UploadFile | upload.js:148-196 | the progress loop reports 0, 10, ..., 100; the placeholder becomes the stored record or is marked failed; the rest of the list is unchanged |
| Upload.UploadManager.DeleteFile | upload.js:221-233 | removes exactly that id's entries, and only when confirmed and deleted from the database |
| Upload.UploadAddsSize | upload.js:299-307 | a finished upload adds its size to the total and one to the count |
| Api.DispatchOf | api.js:59-69 | timeLog, progress and checklist map to addTimeLog, updateProgress and saveChecklist with their fields; any other type dispatches nothing |
| Api.CallsAppend | api.js:39-43 | the calls of a queue split over concatenation, in order |
| Api.OldUpdatesSkipped | api.js:39-43 | updates no newer than the last sync are never dispatched |
| Api.QueuedThenChecked | api.js:79-88 | an update queued after the last sync is dispatched by the next check, after everything queued before it |
| Api.NestAPI.constructor | api.js:13-16 | the last sync is the stored value or 0 |
| Api.NestAPI.QueueUpdate | api.js:79-88 | appends exactly one entry, stamped with now and source "sonya", reading an absent queue as empty; nothing else changes |
| Api.NestAPI.CheckForUpdates | api.js:30-53 | no stored queue: nothing happens. A full pass dispatches the new updates in order, empties the queue and advances and persists the last sync. A rejected call leaves the queue and the last sync as they were |

## Left out

- Rendering and wiring are not modelled: HTML templates, class toggles, listeners, navigation, alerts, and the modal steps of the PIN reset. `confirm` answers are inputs.
- The IndexedDB wrappers and the JSON round-trips through `localStorage` are not modelled. Their results are inputs.
- Promise interleaving, the save debounce, the sync interval and the upload and shake timers are not modelled. The operations run one after another. The shake timeout that clears the lock screen's error half a second later is not modelled.
- The `sonya_api.py` command-line helper is not modelled: it only prints JSON.
- Randomness is passed in, not drawn: the quiz shuffle, the random fact, the reset code (`draw < 900000`) and the upload id.
- JavaScript `Date` parsing, time zones and locale date strings are not modelled. Dates are triples or millisecond instants. The "older than a day" buckets are None instead of a locale string. `changeMonth` and its date overflow are not modelled.
- Floating point is not modelled: `formatFileSize` and the progress-bar widths.
- Schedule.Upcoming: compares events at day granularity, taking "from today's midnight" as "dated today or later".
- Quiz.Percentage: models `Math.round` of a rational as exact round-half-up, with no floating-point error.
- `localeCompare` of the "HH:MM" strings is taken as code-unit order. `toLowerCase` is taken on ASCII letters only. `parseInt` is modelled on leading digits only; its handling of leading whitespace and signs is not modelled.
- Sorting.SortBy: `Array.prototype.sort` is stable, and the insertion sort is built to keep ties in their input order, but no contract states stability; only sortedness and the permutation are proved.
- Minutes in time logs are integers; non-numeric values are not modelled.
- `loadDataStatus`, the theme buttons' active state and `clearIndexedDB` are not modelled (display and a foreign store).
- `loadScoreHistory` and `saveScore` are not modelled (database reads for display only).
- `handleFiles` runs the uploads one after another: the model checks one `uploadFile` at a time and leaves the final `loadFiles` to `LoadFiles`.
- Notes.NotesManager.SaveCurrentNote: the open note and its list entry are one object in the page. The model copies the edited note back into its entry instead of sharing it, which is the same thing while ids are distinct; duplicate ids are not captured.
- Api.NestAPI.CheckForUpdates: the stored last sync is a string that JavaScript converts to a number in `timestamp > lastSync`. The model keeps it as a number and leaves out non-numeric stored values (which make every comparison false). A queue that fails to parse as JSON is not modelled. The dashboard refresh after each update is not modelled.
- Queued updates: the payload fields are kept as integers and strings (the checklist items as their JSON text), and any other field is dropped.

## Findings

The page models follow the code as written; the corrected variants stand beside them.

| source | as written | input that shows it | evidently intended | confidence | as-written member | corrected member |
|---|---|---|---|---|---|---|
| settings.js:147 | the PIN format test is `/^={4}$/`, which matches only "====" | new PIN "0315" is refused with "PIN must be exactly 4 digits"; "====" is accepted and then can never be typed on the lock screen | four digits, `/^\d{4}$/` | high, not executed | Settings.SettingsManager.VerifyAndChangePin, Settings.DigitPinRejected, LockScreen.StoredEqualsPinLocksOut | Settings.SettingsManager.VerifyAndChangePinIntended, Settings.DigitPinOnBothPages, LockScreen.TypingPin |
| dashboard.js:290 | today's highlight compares only the day and the month | viewing October 2025 on 11 October 2026 highlights 11 October 2025 | compare the year as well, as schedule.js:137 does | high, not executed | Dashboard.MiniCalendarDay, Dashboard.TodayIgnoresYear | Dashboard.TodayIsUnique, Dashboard.CellsAgreeInTodaysYear |

=== FILE: api.dfy ===
/**
 * The update bridge (api.js): another assistant queues study updates in the browser store, and the
 * app drains the queue, handing each update newer than the last sync to the database.
 */
module Api {
  import opened Base

  /**
   * A queued update as parsed from the store. `kind` is the `type` field; the payload fields are
   * kept as they arrive (the checklist items as their JSON text); `timestamp` is in milliseconds.
   */
  datatype Update = Update(
    kind: string, category: string, minutes: int, value: int, date: string, items: string,
    timestamp: int, source: string)

  /** A database call `processUpdate` makes. */
  datatype Call =
    | AddTimeLog(category: string, minutes: int)
    | UpdateProgress(category: string, value: int)
    | SaveChecklist(date: string, items: string)

  /** `processUpdate`'s switch: one call per known type, none for any other. */
  function DispatchOf(u: Update): (c: Option<Call>)
    ensures c.None? <==> u.kind != "timeLog" && u.kind != "progress" && u.kind != "checklist"
    ensures c.Some? && c.value.AddTimeLog? ==> u.kind == "timeLog" && c.value == AddTimeLog(u.category, u.minutes)
    ensures c.Some? && c.value.UpdateProgress? ==> u.kind == "progress" && c.value == UpdateProgress(u.category, u.value)
    ensures c.Some? && c.value.SaveChecklist? ==> u.kind == "checklist" && c.value == SaveChecklist(u.date, u.items)
  {
    if u.kind == "timeLog" then Some(AddTimeLog(u.category, u.minutes))
    else if u.kind == "progress" then Some(UpdateProgress(u.category, u.value))
    else if u.kind == "checklist" then Some(SaveChecklist(u.date, u.items))
    else None
  }

  /** `queueUpdate`'s entry: the update with the current time and the source "sonya" written over its own. */
  function Stamped(u: Update, now: int): Update {
    u.(timestamp := now, source := "sonya")
  }

  /** Whether `checkForUpdates` hands `u` on: it is newer than the last sync. */
  predicate IsNew(u: Update, lastSync: int) {
    u.timestamp > lastSync
  }

  /** The database calls made for the updates of `queue` newer than `lastSync`, in queue order. */
  function Calls(queue: seq<Update>, lastSync: int): seq<Call> {
    if queue == [] then []
    else
      var rest := Calls(queue[1..], lastSync);
      if IsNew(queue[0], lastSync) && DispatchOf(queue[0]).Some? then [DispatchOf(queue[0]).value] + rest else rest
  }

  lemma {:induction false} CallsAppend(a: seq<Update>, b: seq<Update>, lastSync: int)
    ensures Calls(a + b, lastSync) == Calls(a, lastSync) + Calls(b, lastSync)
  {
    if a == [] {
      assert a + b == b;
    } else {
      assert (a + b)[0] == a[0] && (a + b)[1..] == a[1..] + b;
      CallsAppend(a[1..], b, lastSync);
    }
  }

  /** Updates no newer than the last sync are never handed on, whatever their type. */
  lemma {:induction false} OldUpdatesSkipped(queue: seq<Update>, lastSync: int)
    requires forall i :: 0 <= i < |queue| ==> queue[i].timestamp <= lastSync
    ensures Calls(queue, lastSync) == []
  {
    if queue != [] {
      OldUpdatesSkipped(queue[1..], lastSync);
    }
  }

  /**
   * An update queued after the last sync is handed on at the next check, after everything queued
   * before it, as the call its type names.
   */
  lemma QueuedThenChecked(queue: seq<Update>, u: Update, now: int, lastSync: int)
    requires now > lastSync
    ensures Calls(queue + [Stamped(u, now)], lastSync)
         == Calls(queue, lastSync) + (if DispatchOf(u).Some? then [DispatchOf(u).value] else [])
  {
    CallsAppend(queue, [Stamped(u, now)], lastSync);
    assert DispatchOf(Stamped(u, now)) == DispatchOf(u);
  }

  /** Whether the database rejects the call for the update at index `i`, stopping the pass there. */
  predicate StopsAt(queue: seq<Update>, lastSync: int, failsAt: Option<nat>, i: nat) {
    failsAt == Some(i) && i < |queue| && IsNew(queue[i], lastSync) && DispatchOf(queue[i]).Some?
  }

  class NestAPI {
    /** The last sync instant, from the store or 0. */
    var lastSync: int
    /** The stored queue, None while the key is absent. */
    var pending: Option<seq<Update>>
    /** The stored last sync instant. */
    var storedLastSync: Option<int>
    /** The database calls made so far, in order. */
    var calls: seq<Call>

    /** The constructor: `nest_last_sync` or 0. */
    constructor (storedSync: Option<int>, queue: Option<seq<Update>>)
      ensures lastSync == storedSync.GetOr(0) && storedLastSync == storedSync
      ensures pending == queue && calls == []
    {
      lastSync := storedSync.GetOr(0);
      storedLastSync := storedSync;
      pending := queue;
      calls := [];
    }

    /** `queueUpdate`: one stamped entry at the end of the stored queue, an absent queue read as empty. */
    method QueueUpdate(u: Update, now: int)
      modifies this
      ensures pending == Some(old(pending).GetOr([]) + [Stamped(u, now)])
      ensures lastSync == old(lastSync) && storedLastSync == old(storedLastSync) && calls == old(calls)
    {
      pending := Some(pending.GetOr([]) + [Stamped(u, now)]);
    }

    /**
     * `checkForUpdates` at instant `now`, with `failsAt` the queue index whose database call
     * rejects, if any. No stored queue: nothing happens. A full pass hands on every new update in
     * order, empties the queue and records `now` as the last sync. A rejected call ends the pass:
     * the calls made so far stay made, and the queue and the last sync are left as they were.
     */
    method CheckForUpdates(now: int, failsAt: Option<nat>)
      modifies this
      ensures old(pending).None? ==>
                pending == None && lastSync == old(lastSync) && storedLastSync == old(storedLastSync) && calls == old(calls)
      ensures old(pending).Some? && failsAt.Some? && StopsAt(old(pending).value, old(lastSync), failsAt, failsAt.value) ==>
                && calls == old(calls) + Calls(old(pending).value[..failsAt.value + 1], old(lastSync))
                && pending == old(pending) && lastSync == old(lastSync) && storedLastSync == old(storedLastSync)
      ensures old(pending).Some? && !(failsAt.Some? && StopsAt(old(pending).value, old(lastSync), failsAt, failsAt.value)) ==>
                && calls == old(calls) + Calls(old(pending).value, old(lastSync))
                && pending == Some([]) && lastSync == now && storedLastSync == Some(now)
    {
      if pending.None? {
        return;
      }
      var queue := pending.value;
      var i := 0;
      while i < |queue|
        invariant 0 <= i <= |queue|
        invariant calls == old(calls) + Calls(queue[..i], lastSync)
        invariant forall k :: 0 <= k < i ==> !StopsAt(queue, lastSync, failsAt, k)
        invariant pending == old(pending) && lastSync == old(lastSync) && storedLastSync == old(storedLastSync)
      {
        var u := queue[i];
        CallsAppend(queue[..i], [u], lastSync);
        assert queue[..i + 1] == queue[..i] + [u];
        if IsNew(u, lastSync) {
          var c := DispatchOf(u);
          if c.Some? {
            calls := calls + [c.value];
            if failsAt == Some(i) {
              return;
            }
          }
        }
        i := i + 1;
      }
      assert queue[..i] == queue;
      pending := Some([]);
      lastSync := now;
      storedLastSync := Some(now);
    }
  }
}

=== FILE: base.dfy ===
/** A missing value: JavaScript's `null` / `undefined`. */
module Base {

  datatype Option<+T> = None | Some(value: T) {

    /** The value, or `default` when missing: JavaScript's `x || default` for an absent `x`. */
    function GetOr(default: T): T {
      match this
      case Some(v) => v
      case None => default
    }
  }

  /** The first index of `s` whose element satisfies `p`, or None: JavaScript's `findIndex` (-1 as None). */
  function FindIndex<T>(s: seq<T>, p: T -> bool): (r: Option<nat>)
    ensures r.Some? ==> r.value < |s| && p(s[r.value])
    ensures r.Some? ==> forall k :: 0 <= k < r.value ==> !p(s[k])
    ensures r.None? ==> forall k :: 0 <= k < |s| ==> !p(s[k])
  {
    if s == [] then None
    else if p(s[0]) then Some(0)
    else match FindIndex(s[1..], p)
      case None => None
      case Some(k) => Some(k + 1)
  }

  /** The elements of `s` that satisfy `p`, in order: JavaScript's `filter`. */
  function Filter<T(!new)>(s: seq<T>, p: T -> bool): (r: seq<T>)
    ensures |r| <= |s|
    ensures forall x {:trigger multiset(r)[x]} :: multiset(r)[x] == if p(x) then multiset(s)[x] else 0
    ensures forall x {:trigger x in r} :: x in r <==> x in s && p(x)
  {
    if s == [] then []
    else
      assert s == [s[0]] + s[1..];
      (if p(s[0]) then [s[0]] else []) + Filter(s[1..], p)
  }

  lemma {:induction false} FilterAppend<T(!new)>(a: seq<T>, b: seq<T>, p: T -> bool)
    ensures Filter(a + b, p) == Filter(a, p) + Filter(b, p)
  {
    if a == [] {
      assert a + b == b;
    } else {
      var head := if p(a[0]) then [a[0]] else [];
      assert (a + b)[0] == a[0] && (a + b)[1..] == a[1..] + b;
      calc {
        Filter(a + b, p);
        head + Filter(a[1..] + b, p);
        { FilterAppend(a[1..], b, p); }
        head + (Filter(a[1..], p) + Filter(b, p));
        (head + Filter(a[1..], p)) + Filter(b, p);
      }
    }
  }

  /** Appending to a concatenation appends to its second part. */
  lemma AppendOne<T>(a: seq<T>, b: seq<T>, x: T)
    ensures (a + b) + [x] == a + (b + [x])
  {
  }

  /** The values of `f` at 1, 2, ..., `n`, in order. */
  function Tabulate<T>(f: int -> T, n: nat): (r: seq<T>)
    ensures |r| == n
  {
    seq(n, i => f(i + 1))
  }

  lemma TabulateAt<T>(f: int -> T, n: nat, d: int)
    requires 1 <= d <= n
    ensures Tabulate(f, n)[d - 1] == f(d)
  {
  }

  /** One more value goes at the end. */
  lemma TabulateSnoc<T>(f: int -> T, n: nat)
    ensures Tabulate(f, n + 1) == Tabulate(f, n) + [f(n + 1)]
  {
    var a, b := Tabulate(f, n + 1), Tabulate(f, n) + [f(n + 1)];
    forall i | 0 <= i < n + 1 ensures a[i] == b[i] {
    }
  }
}

=== FILE: calendar.dfy ===
/**
 * Calendar arithmetic behind JavaScript's local `Date` as the month grids use it: proleptic Gregorian
 * calendar, months numbered 0..11 as `getMonth` returns them, weekdays 0 (Sunday) .. 6 (Saturday)
 * as `getDay` returns them.
 */
module Calendar {

  /** A calendar date with a 0-based month, as `getFullYear`, `getMonth` and `getDate` report it. */
  datatype Date = Date(year: int, month: int, day: int)

  predicate IsLeapYear(y: int) {
    y % 4 == 0 && (y % 100 != 0 || y % 400 == 0)
  }

  /** `new Date(y, m + 1, 0).getDate()`: the number of days of month `m` of year `y`. */
  function DaysInMonth(y: int, m: int): (n: int)
    requires 0 <= m < 12
    ensures 28 <= n <= 31
    ensures n == 29 <==> m == 1 && IsLeapYear(y)
  {
    if m == 1 then (if IsLeapYear(y) then 29 else 28)
    else if m == 3 || m == 5 || m == 8 || m == 10 then 30
    else 31
  }

  /** `new Date(y, m, 0).getDate()`: the length of the month before, December of the year before for January. */
  function DaysInPreviousMonth(y: int, m: int): (n: int)
    requires 0 <= m < 12
    ensures 28 <= n <= 31
    ensures m > 0 ==> n == DaysInMonth(y, m - 1)
    ensures m == 0 ==> n == DaysInMonth(y - 1, 11)
  {
    if m == 0 then 31 else DaysInMonth(y, m - 1)
  }

  /** Days in the months of year `y` before month `m`. */
  function DaysBeforeMonth(y: int, m: int): nat
    requires 0 <= m <= 12
  {
    if m == 0 then 0 else DaysBeforeMonth(y, m - 1) + DaysInMonth(y, m - 1)
  }

  /** Days from 1 January of year 1 to 1 January of year `y`. */
  function DaysBeforeYear(y: int): int {
    365 * (y - 1) + (y - 1) / 4 - (y - 1) / 100 + (y - 1) / 400
  }

  /** Days from 1 January of year 1 (a Monday) to the given date. */
  function DayNumber(y: int, m: int, d: int): int
    requires 0 <= m < 12
  {
    DaysBeforeYear(y) + DaysBeforeMonth(y, m) + d - 1
  }

  /** `new Date(y, m, d).getDay()`. */
  function Weekday(y: int, m: int, d: int): (w: int)
    requires 0 <= m < 12
    ensures 0 <= w < 7
  {
    (DayNumber(y, m, d) + 1) % 7
  }

  lemma YearLength(y: int)
    ensures DaysBeforeMonth(y, 12) == if IsLeapYear(y) then 366 else 365
    ensures DaysBeforeYear(y + 1) == DaysBeforeYear(y) + DaysBeforeMonth(y, 12)
  {
    var feb := DaysInMonth(y, 1);
    assert DaysBeforeMonth(y, 1) == 31;
    assert DaysBeforeMonth(y, 2) == 31 + feb;
    assert DaysBeforeMonth(y, 3) == 62 + feb;
    assert DaysBeforeMonth(y, 4) == 92 + feb;
    assert DaysBeforeMonth(y, 5) == 123 + feb;
    assert DaysBeforeMonth(y, 6) == 153 + feb;
    assert DaysBeforeMonth(y, 7) == 184 + feb;
    assert DaysBeforeMonth(y, 8) == 215 + feb;
    assert DaysBeforeMonth(y, 9) == 245 + feb;
    assert DaysBeforeMonth(y, 10) == 276 + feb;
    assert DaysBeforeMonth(y, 11) == 306 + feb;
    assert DaysBeforeMonth(y, 12) == 337 + feb;
    LeapDays(y);
  }

  /** Year `y` adds a leap day exactly when the count of multiples of 4, 100 and 400 steps up by it. */
  lemma LeapDays(y: int)
    ensures (y / 4 - (y - 1) / 4) - (y / 100 - (y - 1) / 100) + (y / 400 - (y - 1) / 400)
         == if IsLeapYear(y) then 1 else 0
  {
    Step4(y);
    Step100(y);
    Step400(y);
    DivisibilityChain(y);
  }

  /** Multiples of 400 are multiples of 100, which are multiples of 4. */
  lemma DivisibilityChain(y: int)
    ensures y % 400 == 0 ==> y % 100 == 0
    ensures y % 100 == 0 ==> y % 4 == 0
  {
    if y % 400 == 0 {
      var k := y / 400;
      assert y == 100 * (4 * k);
    }
    if y % 100 == 0 {
      var k := y / 100;
      assert y == 4 * (25 * k);
    }
  }

  lemma Step4(y: int)
    ensures y / 4 - (y - 1) / 4 == if y % 4 == 0 then 1 else 0
  {
  }

  lemma Step100(y: int)
    ensures y / 100 - (y - 1) / 100 == if y % 100 == 0 then 1 else 0
  {
  }

  lemma Step400(y: int)
    ensures y / 400 - (y - 1) / 400 == if y % 400 == 0 then 1 else 0
  {
  }

  lemma ShiftMod7(a: int, n: int)
    ensures (a + n) % 7 == (a % 7 + n) % 7
  {
  }

  /** A month starts on the weekday after the last day of the month before, also across a new year. */
  lemma {:induction false} NextMonthStart(y: int, m: int)
    requires 0 <= m < 12
    ensures m < 11 ==> Weekday(y, m + 1, 1) == (Weekday(y, m, 1) + DaysInMonth(y, m)) % 7
    ensures m == 11 ==> Weekday(y + 1, 0, 1) == (Weekday(y, m, 1) + DaysInMonth(y, m)) % 7
  {
    if m == 11 {
      YearLength(y);
    }
    ShiftMod7(DayNumber(y, m, 1) + 1, DaysInMonth(y, m));
  }

  lemma TodayIsSunday()
    ensures Weekday(2026, 9, 11) == 0
  {
  }
}

=== FILE: dashboard.dfy ===
/**
 * The dashboard (dashboard.js): today's study minutes per category, their "Hh Mm" labels, the
 * checklist counter and the mini month calendar that links each day to the schedule page.
 */
module Dashboard {
  import opened Base
  import opened Text
  import opened Calendar

  /** A stored time log; `date` is the day's `toDateString()` text. */
  datatype TimeLog = TimeLog(category: string, minutes: int, date: string)

  /** The four categories the dashboard adds up. */
  predicate Tracked(category: string) {
    category == "quals" || category == "dissertation" || category == "reports" || category == "class"
  }

  const MinutesPerClick := 15

  /** `addTime` → `addTimeLog(category, 15)`: the store receives one more log, stamped with today. */
  function AddTime(logs: seq<TimeLog>, category: string, today: string): (r: seq<TimeLog>)
    ensures |r| == |logs| + 1 && r[..|logs|] == logs
    ensures r[|logs|] == TimeLog(category, MinutesPerClick, today)
  {
    logs + [TimeLog(category, MinutesPerClick, today)]
  }

  predicate OnDate(log: TimeLog, date: string) { log.date == date }

  /** `getTimeLogs`: exactly the logs made on `date`, in stored order. */
  function GetTimeLogs(logs: seq<TimeLog>, date: string): (r: seq<TimeLog>)
    ensures forall log {:trigger multiset(r)[log]} :: multiset(r)[log] == if log.date == date then multiset(logs)[log] else 0
    ensures forall i :: 0 <= i < |r| ==> r[i].date == date
  {
    var r := Filter(logs, log => OnDate(log, date));
    forall i | 0 <= i < |r| ensures r[i].date == date {
      assert r[i] in r;
    }
    r
  }

  /** The minutes logged under `category` (reference definition). */
  function CategoryMinutes(logs: seq<TimeLog>, category: string): int {
    if logs == [] then 0
    else CategoryMinutes(logs[..|logs| - 1], category)
         + (if logs[|logs| - 1].category == category then logs[|logs| - 1].minutes else 0)
  }

  /** The minutes of all logs in the four tracked categories (reference definition). */
  function TrackedMinutes(logs: seq<TimeLog>): int {
    if logs == [] then 0
    else TrackedMinutes(logs[..|logs| - 1])
         + (if Tracked(logs[|logs| - 1].category) then logs[|logs| - 1].minutes else 0)
  }

  datatype Totals = Totals(quals: int, dissertation: int, reports: int, class_: int)

  function TotalsOf(logs: seq<TimeLog>): Totals {
    Totals(CategoryMinutes(logs, "quals"), CategoryMinutes(logs, "dissertation"),
           CategoryMinutes(logs, "reports"), CategoryMinutes(logs, "class"))
  }

  /** The number behind the "total" label. */
  function GrandTotal(t: Totals): int {
    t.quals + t.dissertation + t.reports + t.class_
  }

  /** Adds one log to the running totals; logs of any other category leave them alone. */
  function AddLog(t: Totals, log: TimeLog): (r: Totals)
    ensures !Tracked(log.category) ==> r == t
    ensures GrandTotal(r) == GrandTotal(t) + (if Tracked(log.category) then log.minutes else 0)
  {
    match log.category
    case "quals" => t.(quals := t.quals + log.minutes)
    case "dissertation" => t.(dissertation := t.dissertation + log.minutes)
    case "reports" => t.(reports := t.reports + log.minutes)
    case "class" => t.(class_ := t.class_ + log.minutes)
    case _ => t
  }

  /** `loadTimeLogs`' accumulation loop over the day's logs. */
  method ComputeTotals(logs: seq<TimeLog>) returns (totals: Totals)
    ensures totals == TotalsOf(logs)
  {
    totals := Totals(0, 0, 0, 0);
    var i := 0;
    while i < |logs|
      invariant 0 <= i <= |logs|
      invariant totals == TotalsOf(logs[..i])
    {
      assert logs[..i + 1][..i] == logs[..i];
      totals := AddLog(totals, logs[i]);
      i := i + 1;
    }
    assert logs[..i] == logs;
  }

  /** The displayed total is the minutes of every tracked log, and logs of other categories count nowhere. */
  lemma {:induction false} GrandTotalIsTrackedMinutes(logs: seq<TimeLog>)
    ensures GrandTotal(TotalsOf(logs)) == TrackedMinutes(logs)
  {
    if logs != [] {
      GrandTotalIsTrackedMinutes(logs[..|logs| - 1]);
    }
  }

  /** Each click adds exactly 15 minutes to its category's total for today and nothing to the others. */
  lemma AddTimeCounts(logs: seq<TimeLog>, category: string, today: string, c: string)
    ensures CategoryMinutes(GetTimeLogs(AddTime(logs, category, today), today), c)
         == CategoryMinutes(GetTimeLogs(logs, today), c) + (if c == category then MinutesPerClick else 0)
  {
    var log := TimeLog(category, MinutesPerClick, today);
    FilterAppend(logs, [log], l => OnDate(l, today));
    assert Filter([log], l => OnDate(l, today)) == [log];
    var r := GetTimeLogs(logs, today) + [log];
    assert r[..|r| - 1] == GetTimeLogs(logs, today);
  }

  /** The integer parts of `formatTime`: `Math.floor(m / 60)` and JavaScript's truncating `m % 60`. */
  function SplitMinutes(m: int): (r: (int, int))
    ensures m >= 0 ==> 0 <= r.1 < 60 && r.0 * 60 + r.1 == m && r.0 >= 0
    ensures m < 0 ==> -60 < r.1 <= 0 && r.0 < 0
    ensures m < 0 && r.1 != 0 ==> r.0 * 60 + r.1 == m - 60
    ensures m < 0 && r.1 == 0 ==> r.0 * 60 == m
  {
    var hours := m / 60;
    var mins := if m >= 0 then m % 60 else -((-m) % 60);
    (hours, mins)
  }

  /** `formatTime(minutes)`: "Hh Mm". */
  function FormatMinutes(m: int): (s: string)
    ensures m >= 0 ==> s == NatToString(m / 60) + "h " + NatToString(m % 60) + "m"
  {
    var (hours, mins) := SplitMinutes(m);
    IntToString(hours) + "h " + IntToString(mins) + "m"
  }

  /** For a non-negative count the label reads back as the count: hours times sixty plus the minutes. */
  lemma FormatMinutesReadsBack(m: nat)
    ensures var s := FormatMinutes(m); var h := NatToString(m / 60); var mm := NatToString(m % 60);
      && s == h + "h " + mm + "m"
      && ParseDigits(h) * 60 + ParseDigits(mm) == m
      && |mm| <= 2
  {
    ParsePrinted(m / 60);
    ParsePrinted(m % 60);
    if m % 60 >= 10 {
      PrintedLength(m % 60, 2);
    } else {
      PrintedLength(m % 60, 1);
    }
  }

  /** The number of ticked boxes. */
  function CountChecked(boxes: seq<bool>): (n: nat)
    ensures n <= |boxes|
    ensures n == |boxes| <==> forall i :: 0 <= i < |boxes| ==> boxes[i]
    ensures n == 0 <==> forall i :: 0 <= i < |boxes| ==> !boxes[i]
  {
    if boxes == [] then 0
    else
      var rest := CountChecked(boxes[1..]);
      assert forall i :: 1 <= i < |boxes| ==> boxes[i] == boxes[1..][i - 1];
      (if boxes[0] then 1 else 0) + rest
  }

  /** `updateChecklistProgress`' text: ticked / all. */
  function ChecklistText(boxes: seq<bool>): string {
    NatToString(CountChecked(boxes)) + "/" + NatToString(|boxes|)
  }

  /**
   * The text reads back: the part before the only "/" is the ticked count, the part after it the
   * number of boxes, and the first is never the larger.
   */
  lemma ChecklistTextReadsBack(boxes: seq<bool>)
    ensures var s := ChecklistText(boxes); var c := NatToString(CountChecked(boxes)); var t := NatToString(|boxes|);
      && s == c + "/" + t && s[|c|] == '/'
      && AllDigits(c) && AllDigits(t)
      && ParseDigits(c) == CountChecked(boxes) && ParseDigits(t) == |boxes|
      && ParseDigits(c) <= ParseDigits(t)
  {
    ParsePrinted(CountChecked(boxes));
    ParsePrinted(|boxes|);
  }

  /** Ticking one more box raises the ticked count by one and keeps the total. */
  lemma {:induction false} TickOne(boxes: seq<bool>, i: int)
    requires 0 <= i < |boxes| && !boxes[i]
    ensures CountChecked(boxes[i := true]) == CountChecked(boxes) + 1
  {
    if i > 0 {
      assert boxes[i := true][1..] == boxes[1..][i - 1 := true];
      TickOne(boxes[1..], i - 1);
    }
  }

  // ---------------------------------------------------------------------------------------------
  // The mini calendar

  datatype MiniCell = Blank | MiniDay(day: int, isToday: bool, hasEvent: bool, link: string)

  /** The days that carry an event marker. */
  predicate HasEventMarker(day: int) {
    day == 19 || day == 20 || day == 26
  }

  /** `${year}-${mm}-${dd}` with month and day padded to two digits. */
  function DateString(year: int, month: int, day: int): string {
    IntToString(year) + "-" + PadStart2(IntToString(month + 1)) + "-" + PadStart2(IntToString(day))
  }

  lemma TwoDigits(n: nat)
    requires n < 100
    ensures var s := PadStart2(NatToString(n)); |s| == 2 && AllDigits(s) && ParseDigits(s) == n
  {
    ParsePrinted(n);
    var p := NatToString(n);
    if n < 10 {
      PrintedLength(n, 1);
      assert PadStart2(p) == "0" + p;
      assert ("0" + p)[..1] == "0";
    } else {
      PrintedLength(n, 2);
    }
  }

  /** Where the parts of "a-b-c" sit once their lengths are known. */
  lemma DashedParts(a: string, b: string, c: string)
    requires |a| == 4 && |b| == 2 && |c| == 2
    ensures var s := a + "-" + b + "-" + c;
      && |s| == 10 && s[4] == '-' && s[7] == '-' && s[..4] == a && s[5..7] == b && s[8..] == c
  {
    var ab := a + "-" + b;
    var s := ab + "-" + c;
    assert s[..7] == ab;
    assert s[..4] == ab[..4] == a;
    assert s[5..7] == ab[5..] == b;
  }

  /** A four-digit year gives "YYYY-MM-DD": ten characters, dashes at 4 and 7, the month counted from 1. */
  lemma DateStringLayout(year: int, month: int, day: int)
    requires 1000 <= year <= 9999 && 0 <= month < 12 && 1 <= day <= 31
    ensures var s := DateString(year, month, day);
      && |s| == 10 && s[4] == '-' && s[7] == '-'
      && AllDigits(s[..4]) && AllDigits(s[5..7]) && AllDigits(s[8..])
      && ParseDigits(s[..4]) == year && ParseDigits(s[5..7]) == month + 1 && ParseDigits(s[8..]) == day
  {
    assert Pow10(3) == 1000 && Pow10(4) == 10000;
    PrintedLength(year, 4);
    ParsePrinted(year);
    TwoDigits(month + 1);
    TwoDigits(day);
    DashedParts(NatToString(year), PadStart2(NatToString(month + 1)), PadStart2(NatToString(day)));
  }

  /** The highlight as written: the day and the month match today's, whatever the year. */
  predicate IsTodayAsWritten(year: int, month: int, day: int, today: Date) {
    day == today.day && month == today.month
  }

  /** The highlight as intended: the cell's date is today's date. */
  predicate IsToday(year: int, month: int, day: int, today: Date) {
    Date(year, month, day) == today
  }

  /** The cell the second loop appends for `day`: its highlight as written, its event marker and its link date. */
  function MiniDayCell(year: int, month: int, day: int, today: Date): MiniCell {
    MiniDay(day, IsTodayAsWritten(year, month, day, today), HasEventMarker(day), DateString(year, month, day))
  }

  /** The same cell with the intended highlight. */
  function MiniDayCellIntended(year: int, month: int, day: int, today: Date): MiniCell {
    MiniDay(day, IsToday(year, month, day, today), HasEventMarker(day), DateString(year, month, day))
  }

  /** The 11th of October 2025, viewed on 11 October 2026, is highlighted as written and not as intended. */
  lemma TodayIgnoresYear()
    ensures MiniDayCell(2025, 9, 11, Date(2026, 9, 11)).isToday
    ensures !MiniDayCellIntended(2025, 9, 11, Date(2026, 9, 11)).isToday
  {
  }

  /** The two cells differ at most in the highlight, and not at all in today's year. */
  lemma CellsAgreeInTodaysYear(year: int, month: int, day: int, today: Date)
    ensures MiniDayCellIntended(year, month, day, today).MiniDay?
    ensures MiniDayCell(year, month, day, today) == MiniDayCellIntended(year, month, day, today).(isToday := IsTodayAsWritten(year, month, day, today))
    ensures year == today.year ==> MiniDayCell(year, month, day, today) == MiniDayCellIntended(year, month, day, today)
  {
  }

  /** The intended highlight marks exactly one cell: today's, and only in today's month of today's year. */
  lemma TodayIsUnique(year: int, month: int, d1: int, d2: int, today: Date)
    requires MiniDayCellIntended(year, month, d1, today).isToday && MiniDayCellIntended(year, month, d2, today).isToday
    ensures d1 == d2 && year == today.year && month == today.month
  {
  }

  function Blanks(n: nat): (r: seq<MiniCell>)
    ensures |r| == n && forall i :: 0 <= i < n ==> r[i] == Blank
  {
    if n == 0 then [] else Blanks(n - 1) + [Blank]
  }

  /** The second loop's cell for each day of `month`. */
  function DayCellOf(year: int, month: int, today: Date): int -> MiniCell {
    day => MiniDayCell(year, month, day, today)
  }

  /** The cells of days 1 to `n`, in order. */
  function MiniDays(year: int, month: int, today: Date, n: nat): (r: seq<MiniCell>)
    ensures |r| == n
  {
    Tabulate(DayCellOf(year, month, today), n)
  }

  /** The mini month view: a blank per weekday before the 1st, then one cell per day. */
  function MiniCalendar(year: int, month: int, today: Date): seq<MiniCell>
    requires 0 <= month < 12
  {
    Blanks(Weekday(year, month, 1)) + MiniDays(year, month, today, DaysInMonth(year, month))
  }

  /** Cell `d - 1` of the first `n` days is day `d`'s cell. */
  lemma MiniDaysAt(year: int, month: int, today: Date, n: nat, d: int)
    requires 1 <= d <= n
    ensures MiniDays(year, month, today, n)[d - 1] == MiniDayCell(year, month, d, today)
  {
    TabulateAt(DayCellOf(year, month, today), n, d);
  }

  /** The cells behind `first` blanks: their count, the blanks, and day `d` at `first + d - 1`. */
  lemma BlanksThenDays(first: nat, year: int, month: int, today: Date, n: nat, d: int)
    requires 1 <= d <= n
    ensures var cells := Blanks(first) + MiniDays(year, month, today, n);
      && |cells| == first + n
      && (forall i :: 0 <= i < first ==> cells[i] == Blank)
      && cells[first + d - 1] == MiniDayCell(year, month, d, today)
  {
    MiniDaysAt(year, month, today, n, d);
  }

  /**
   * What the cell of day `d` shows: its number, the event marker exactly on the 19th, 20th and 26th,
   * a link to its own "YYYY-MM-DD", and the highlight exactly when its day and month are today's,
   * in whatever year.
   */
  predicate IsDayCell(c: MiniCell, year: int, month: int, d: int, today: Date) {
    && c.MiniDay? && c.day == d
    && (c.hasEvent <==> d == 19 || d == 20 || d == 26)
    && c.link == DateString(year, month, d)
    && (c.isToday <==> d == today.day && month == today.month)
  }

  /** Cell `i` past the blanks holds day `i - firstDay + 1`. */
  lemma MiniDayAt(year: int, month: int, today: Date, i: int)
    requires 0 <= month < 12
    requires Weekday(year, month, 1) <= i < Weekday(year, month, 1) + DaysInMonth(year, month)
    ensures MiniCalendar(year, month, today)[i] == MiniDayCell(year, month, i - Weekday(year, month, 1) + 1, today)
  {
    var first := Weekday(year, month, 1);
    BlanksThenDays(first, year, month, today, DaysInMonth(year, month), i - first + 1);
  }

  /** The mini month view is `firstDay` blank cells followed by one cell per day of the month. */
  lemma MiniCalendarLayout(year: int, month: int, today: Date)
    requires 0 <= month < 12
    ensures |MiniCalendar(year, month, today)| == Weekday(year, month, 1) + DaysInMonth(year, month)
    ensures forall i :: 0 <= i < Weekday(year, month, 1) ==> MiniCalendar(year, month, today)[i] == Blank
  {
    BlanksThenDays(Weekday(year, month, 1), year, month, today, DaysInMonth(year, month), 1);
  }

  /** Every cell past the blanks shows its own day, days 1 to the month's length in order. */
  lemma MiniCalendarDay(year: int, month: int, today: Date, i: int)
    requires 0 <= month < 12
    requires Weekday(year, month, 1) <= i < Weekday(year, month, 1) + DaysInMonth(year, month)
    ensures IsDayCell(MiniCalendar(year, month, today)[i], year, month, i - Weekday(year, month, 1) + 1, today)
  {
    MiniDayAt(year, month, today, i);
  }

  /** `loadCalendar`: the weekday of the 1st and the month's length, then the two loops. */
  method LoadCalendar(year: int, month: int, today: Date) returns (cells: seq<MiniCell>)
    requires 0 <= month < 12
    ensures cells == MiniCalendar(year, month, today)
  {
    cells := FillMiniCalendar(Weekday(year, month, 1), DaysInMonth(year, month), year, month, today);
  }

  /** `loadCalendar`'s two loops: `firstDay` blanks, then days 1 to `daysInMonth`. */
  method FillMiniCalendar(firstDay: nat, daysInMonth: nat, year: int, month: int, today: Date) returns (cells: seq<MiniCell>)
    ensures cells == Blanks(firstDay) + MiniDays(year, month, today, daysInMonth)
  {
    var blanks := BlankCells(firstDay);
    cells := AppendDays(blanks, daysInMonth, year, month, today);
  }

  /** The first loop: one blank per weekday before the 1st. */
  method BlankCells(firstDay: nat) returns (cells: seq<MiniCell>)
    ensures cells == Blanks(firstDay)
  {
    cells := [];
    var i := 0;
    while i < firstDay
      invariant 0 <= i <= firstDay
      invariant cells == Blanks(i)
    {
      cells := cells + [Blank];
      i := i + 1;
    }
  }

  /** The second loop: the cells of days 1 to `daysInMonth` after `blanks`. */
  method AppendDays(blanks: seq<MiniCell>, daysInMonth: nat, year: int, month: int, today: Date) returns (cells: seq<MiniCell>)
    ensures cells == blanks + MiniDays(year, month, today, daysInMonth)
  {
    cells := blanks;
    var day := 1;
    while day <= daysInMonth
      invariant 1 <= day <= daysInMonth + 1
      invariant cells == blanks + MiniDays(year, month, today, day - 1)
    {
      var cell := MiniDayCell(year, month, day, today);
      AppendOne(blanks, MiniDays(year, month, today, day - 1), cell);
      TabulateSnoc(DayCellOf(year, month, today), day - 1);
      cells := cells + [cell];
      day := day + 1;
    }
  }
}

=== FILE: lock_screen.dfy ===
/**
 * The lock screen (app.js): a PIN buffer filled from the keypad or the keyboard, compared with the
 * configured PIN on Enter.
 */
module LockScreen {
  import opened Text
  import opened Storage
  import Settings

  /** The PIN the lock screen compares with: the stored one, or the default when none (or "") is stored. */
  function ConfiguredPin(store: Store): (pin: string)
    ensures pin != ""
    ensures PinKey !in store ==> pin == Settings.DefaultPin
    ensures PinKey in store && store[PinKey] != "" ==> pin == store[PinKey]
    ensures PinKey in store && store[PinKey] == "" ==> pin == Settings.DefaultPin
  {
    ItemOr(store, PinKey, Settings.DefaultPin)
  }

  /** A PIN the settings page stores becomes the one the lock screen asks for; the page never stores "". */
  lemma ChangedPinIsConfigured(store: Store, pin: string)
    requires pin != ""
    ensures ConfiguredPin(store[PinKey := pin]) == pin
  {
  }

  /**
   * Once the settings page as written has changed the PIN, it is "====", and no run of keys typed
   * on the lock screen matches it.
   */
  lemma StoredEqualsPinLocksOut(store: Store, keys: seq<string>)
    requires PinKey in store && Settings.PinFormatAsWritten(store[PinKey])
    ensures TypeKeys("", keys) != ConfiguredPin(store)
  {
    EqualsPinLocksOut(keys);
  }

  const BufferSize := 4

  /** `addDigit`: appends while the buffer holds fewer than four characters, else ignores the input. */
  function WithDigit(pin: string, digit: string): (r: string)
    ensures |pin| < BufferSize ==> r == pin + digit
    ensures |pin| >= BufferSize ==> r == pin
  {
    if |pin| < BufferSize then pin + digit else pin
  }

  /** `clear`: `slice(0, -1)` drops the last character, and leaves "" as it is. */
  function WithoutLast(pin: string): (r: string)
    ensures pin == [] ==> r == []
    ensures pin != [] ==> r + [pin[|pin| - 1]] == pin
  {
    if pin == [] then [] else pin[..|pin| - 1]
  }

  /** The keydown handler's digit test, `key >= '0' && key <= '9'`, a comparison of strings. */
  predicate IsDigitKey(key: string) {
    LexLe("0", key) && LexLe(key, "9")
  }

  /** For a one-character key the test is the digit test; every key that passes starts with a digit. */
  lemma DigitKeys(key: string)
    ensures |key| == 1 ==> (IsDigitKey(key) <==> IsDigit(key[0]))
    ensures IsDigitKey(key) ==> key != [] && IsDigit(key[0])
  {
    if key == [] {
      assert !LexLe("0", key);
    } else {
      DigitRangeByFirst(key);
    }
  }

  /** What a key other than Enter does to the buffer. */
  function KeyStep(pin: string, key: string): string {
    if IsDigitKey(key) then WithDigit(pin, key)
    else if key == "Backspace" then WithoutLast(pin)
    else pin
  }

  /** The buffer after a run of keys (none of them Enter), starting from `pin`. */
  function TypeKeys(pin: string, keys: seq<string>): string
    decreases |keys|
  {
    if keys == [] then pin else TypeKeys(KeyStep(pin, keys[0]), keys[1..])
  }

  /**
   * Typed from the keyboard the buffer never grows past four characters when every key that passes
   * the digit test is one character; Backspace and the other named keys may be among them.
   */
  lemma {:induction false} BufferBounded(pin: string, keys: seq<string>)
    requires |pin| <= BufferSize
    requires forall i :: 0 <= i < |keys| && IsDigitKey(keys[i]) ==> |keys[i]| == 1
    ensures |TypeKeys(pin, keys)| <= BufferSize
    decreases |keys|
  {
    if keys != [] {
      BufferBounded(KeyStep(pin, keys[0]), keys[1..]);
    }
  }

  /** Whatever keys are typed, the buffer is empty or starts with a digit. */
  lemma {:induction false} BufferStartsWithDigit(pin: string, keys: seq<string>)
    requires pin == [] || IsDigit(pin[0])
    ensures var r := TypeKeys(pin, keys); r == [] || IsDigit(r[0])
    decreases |keys|
  {
    if keys != [] {
      var next := KeyStep(pin, keys[0]);
      if IsDigitKey(keys[0]) {
        DigitKeys(keys[0]);
        assert next == [] || IsDigit(next[0]);
      } else if keys[0] == "Backspace" && pin != [] {
        assert next == [] || next[0] == pin[0];
      }
      BufferStartsWithDigit(next, keys[1..]);
    }
  }

  /**
   * The PIN the settings page's check accepts as written, "====", can never be typed on the lock
   * screen: once stored, no run of keys unlocks.
   */
  lemma {:induction false} EqualsPinLocksOut(keys: seq<string>)
    ensures Settings.PinFormatAsWritten(TypeKeys("", keys)) == false
  {
    BufferStartsWithDigit("", keys);
  }

  /** A four-digit PIN typed one digit at a time from an empty buffer fills it exactly. */
  lemma TypingPin(pin: string)
    requires Settings.PinFormat(pin)
    ensures TypeKeys("", [pin[0..1], pin[1..2], pin[2..3], pin[3..4]]) == pin
  {
    var keys := [pin[0..1], pin[1..2], pin[2..3], pin[3..4]];
    forall i | 0 <= i < 4 ensures IsDigitKey(keys[i]) {
      DigitKeys(keys[i]);
    }
    assert KeyStep("", keys[0]) == pin[..1];
    assert KeyStep(pin[..1], keys[1]) == pin[..2];
    assert KeyStep(pin[..2], keys[2]) == pin[..3];
    assert KeyStep(pin[..3], keys[3]) == pin;
    assert TypeKeys(pin, keys[4..]) == pin;
    assert TypeKeys(pin[..3], keys[3..]) == pin;
    assert TypeKeys(pin[..2], keys[2..]) == pin;
    assert TypeKeys(pin[..1], keys[1..]) == pin;
  }

  const IncorrectPin := "Incorrect PIN. Try again."

  class PinLock {
    /** The characters entered so far. */
    var pin: string
    /** The text of the error line. */
    var error: string
    /** Set once the page has moved on to the dashboard. */
    var unlocked: bool
    /** `CONFIG.PIN`, read once when the page loads. */
    const configured: string

    constructor (store: Store)
      ensures pin == "" && error == "" && !unlocked
      ensures configured == ConfiguredPin(store)
    {
      pin := "";
      error := "";
      unlocked := false;
      configured := ConfiguredPin(store);
    }

    /** `addDigit`: a character while there is room, which also clears the error line. */
    method AddDigit(digit: string)
      modifies this
      ensures pin == WithDigit(old(pin), digit)
      ensures error == if |old(pin)| < BufferSize then "" else old(error)
      ensures unlocked == old(unlocked)
    {
      if |pin| < BufferSize {
        pin := pin + digit;
        error := "";
      }
    }

    /** `clear`: drops the last character and clears the error line. */
    method Clear()
      modifies this
      ensures pin == WithoutLast(old(pin)) && error == "" && unlocked == old(unlocked)
    {
      pin := if pin == [] then [] else pin[..|pin| - 1];
      error := "";
    }

    /** `submit`: the configured PIN unlocks; anything else empties the buffer and shows the error. */
    method Submit()
      modifies this
      ensures old(pin) == configured ==> unlocked && pin == old(pin) && error == old(error)
      ensures old(pin) != configured ==> unlocked == old(unlocked) && pin == "" && error == IncorrectPin
    {
      if pin == configured {
        unlocked := true;
      } else {
        error := IncorrectPin;
        pin := "";
      }
    }

    /** The keydown listener: digits, Backspace and Enter; every other key is ignored. */
    method HandleKey(key: string)
      modifies this
      ensures key != "Enter" ==> pin == KeyStep(old(pin), key) && unlocked == old(unlocked)
      ensures IsDigitKey(key) ==> error == if |old(pin)| < BufferSize then "" else old(error)
      ensures key == "Backspace" ==> error == ""
      ensures !IsDigitKey(key) && key != "Backspace" && key != "Enter" ==> error == old(error)
      ensures key == "Enter" && old(pin) == configured ==> unlocked && pin == old(pin) && error == old(error)
      ensures key == "Enter" && old(pin) != configured ==> unlocked == old(unlocked) && pin == "" && error == IncorrectPin
    {
      if IsDigitKey(key) {
        AddDigit(key);
      } else if key == "Backspace" {
        Clear();
      } else if key == "Enter" {
        Submit();
      }
    }

    /** `handleInput` for a keypad button: its action, else its digit when it has one (a missing attribute is ""). */
    method HandleInput(action: string, num: string)
      modifies this
      ensures action == "clear" ==> pin == WithoutLast(old(pin)) && error == "" && unlocked == old(unlocked)
      ensures action == "enter" && old(pin) == configured ==> unlocked && pin == old(pin) && error == old(error)
      ensures action == "enter" && old(pin) != configured ==> unlocked == old(unlocked) && pin == "" && error == IncorrectPin
      ensures action != "clear" && action != "enter" ==>
                pin == (if num != "" then WithDigit(old(pin), num) else old(pin)) && unlocked == old(unlocked)
      ensures action != "clear" && action != "enter" ==>
                error == (if num != "" && |old(pin)| < BufferSize then "" else old(error))
    {
      if action == "clear" {
        Clear();
      } else if action == "enter" {
        Submit();
      } else if num != "" {
        AddDigit(num);
      }
    }
  }
}

=== FILE: notes.dfy ===
/**
 * The notes page (notes.js): a list of notes kept newest first, one of them open in the editor,
 * saved to and deleted from the browser database. The database's answers are parameters.
 */
module Notes {
  import opened Base
  import opened Text
  import opened Sorting
  import opened RelativeTime

  /**
   * A note. `id` is None until the database has assigned one; `date` (creation) and `updated` (last
   * save) are instants in milliseconds.
   */
  datatype Note = Note(id: Option<int>, title: string, content: string, date: int, updated: Option<int>)

  const UntitledNote := "Untitled Note"

  /** `if (!note.id)`: a missing id and the id 0 both count as not yet saved. */
  predicate IsSaved(n: Note) {
    n.id.Some? && n.id.value != 0
  }

  /** The list order: `b.date - a.date`, so `a` may precede `b` when it is not older. */
  predicate NewerFirst(a: Note, b: Note) {
    a.date >= b.date
  }

  lemma NewerFirstIsPreorder(s: seq<Note>)
    ensures PreorderOn(s, NewerFirst)
  {
  }

  /** The list after the in-place sort: newest first, and the same notes. */
  function ByNewest(notes: seq<Note>): (r: seq<Note>)
    ensures multiset(r) == multiset(notes)
    ensures Sorted(r, NewerFirst)
  {
    NewerFirstIsPreorder(notes);
    var sorted := SortBy(notes, NewerFirst);
    assert multiset(sorted) == multiset(notes) by {
      forall y ensures multiset(sorted)[y] == multiset(notes)[y] {
      }
    }
    sorted
  }

  /** The title a save stores: the trimmed title, or "Untitled Note" when that is empty. */
  function StoredTitle(input: string): (title: string)
    ensures title != ""
    ensures !IsBlank(input) ==> title == Trim(input)
    ensures IsBlank(input) ==> title == UntitledNote
  {
    var t := Trim(input);
    if t == "" then UntitledNote else t
  }

  /** The open note with the editor's fields written into it and stamped at `now`. */
  function Edited(n: Note, titleInput: string, content: string, now: int): Note {
    n.(title := StoredTitle(titleInput), content := content, updated := Some(now))
  }

  /** Whether `n` has the same id as the open note, `n.id === currentNote.id`. */
  predicate SameId(n: Note, id: Option<int>) {
    n.id == id
  }

  /** Writes `n` over the first entry with its id; the list is unchanged when there is none. */
  function Replaced(notes: seq<Note>, n: Note): (r: seq<Note>)
    ensures |r| == |notes|
    ensures forall i :: 0 <= i < |r| ==> r[i] == notes[i] || (r[i] == n && notes[i].id == n.id)
    ensures (exists i :: 0 <= i < |notes| && notes[i].id == n.id) ==> n in r
    ensures (forall i :: 0 <= i < |notes| ==> notes[i].id != n.id) ==> r == notes
    ensures forall i :: 0 <= i < |notes| && notes[i].id == n.id && (forall k :: 0 <= k < i ==> notes[k].id != n.id) ==>
              r == notes[i := n]
  {
    match FindIndex(notes, m => SameId(m, n.id))
    case None => notes
    case Some(i) => notes[i := n]
  }

  /** A first save puts the note into the list once, whatever the list held before. */
  lemma {:induction false} FirstSaveAddsOnce(notes: seq<Note>, n: Note)
    ensures |ByNewest([n] + notes)| == |notes| + 1
    ensures multiset(ByNewest([n] + notes)) == multiset(notes) + multiset{n}
    ensures n in ByNewest([n] + notes)
  {
    var r := ByNewest([n] + notes);
    assert multiset([n] + notes) == multiset{n} + multiset(notes);
    assert |r| == |multiset(r)|;
    assert n in multiset(r);
  }

  /** Deleting: every entry with the open note's id goes, the others stay in order. */
  function WithoutId(notes: seq<Note>, id: Option<int>): (r: seq<Note>)
    ensures forall i :: 0 <= i < |r| ==> r[i].id != id
    ensures forall n: Note :: n.id != id ==> multiset(r)[n] == multiset(notes)[n]
  {
    var r := Filter(notes, m => !SameId(m, id));
    forall i | 0 <= i < |r| ensures r[i].id != id {
      assert r[i] in r;
    }
    r
  }

  /** Deleting keeps the order: it works entry by entry, keeping exactly the entries with another id. */
  lemma WithoutIdKeepsOrder(a: seq<Note>, b: seq<Note>, id: Option<int>, n: Note)
    ensures WithoutId(a + b, id) == WithoutId(a, id) + WithoutId(b, id)
    ensures WithoutId([n], id) == if n.id != id then [n] else []
  {
    FilterAppend(a, b, m => !SameId(m, id));
  }

  // ---------------------------------------------------------------------------------------------
  // Word count and timestamp

  /**
   * The words of `s`: the characters that are not white space and come first or after white space.
   * `afterSpace` says whether the character before `s` was white space (or `s` starts the text).
   */
  function Words(s: string, afterSpace: bool): nat {
    if s == [] then 0
    else (if !IsSpace(s[0]) && afterSpace then 1 else 0) + Words(s[1..], IsSpace(s[0]))
  }

  /** The maximal runs of white space in `s`, `afterText` saying whether `s` follows a non-space character. */
  function SpaceRuns(s: string, afterText: bool): nat {
    if s == [] then 0
    else (if IsSpace(s[0]) && afterText then 1 else 0) + SpaceRuns(s[1..], !IsSpace(s[0]))
  }

  /**
   * `updateWordCount`: 0 for blank content, else the length of `content.trim().split(/\s+/)`, one
   * piece more than the trimmed text has runs of white space.
   */
  function WordCount(content: string): nat {
    var t := Trim(content);
    if t == "" then 0 else SpaceRuns(t, true) + 1
  }

  /** The count shown is the number of words of the raw text, and 0 exactly for blank text. */
  lemma WordCountIsWords(content: string)
    ensures WordCount(content) == Words(content, true)
    ensures WordCount(content) == 0 <==> IsBlank(content)
  {
    var t := Trim(content);
    WordsOfTrimmed(content);
    TrimmedWordCount(t);
  }

  /** Trimming removes no word. */
  lemma WordsOfTrimmed(content: string)
    ensures Words(content, true) == Words(Trim(content), true)
  {
    LeadingSpacesAddNoWords(content);
    TrailingSpacesAddNoWords(TrimStart(content));
  }

  /** A trimmed text has one word more than it has runs of white space, unless it is empty. */
  lemma TrimmedWordCount(t: string)
    requires t == [] || (!IsSpace(t[0]) && !IsSpace(t[|t| - 1]))
    ensures Words(t, true) == if t == [] then 0 else SpaceRuns(t, true) + 1
  {
    if t != [] {
      WordsAndRuns(t, true);
      RunsFromText(t);
    }
  }

  /** A text that starts with a non-space character has the same runs whatever preceded it. */
  lemma RunsFromText(s: string)
    requires s != [] && !IsSpace(s[0])
    ensures SpaceRuns(s, false) == SpaceRuns(s, true)
  {
  }

  /** The words of a text are those of the text with its leading white space trimmed. */
  lemma LeadingSpacesAddNoWords(content: string)
    ensures Words(content, true) == Words(TrimStart(content), true)
  {
    var front := TrimStart(content);
    TrimStartShape(content);
    var lead := content[..|content| - |front|];
    assert IsBlank(lead) by {
      forall i | 0 <= i < |lead| ensures IsSpace(lead[i]) {
        assert lead[i] == content[i];
      }
    }
    assert content == lead + front;
    WordsAfterSpaces(lead, front);
  }

  /** The words of a text are those of the text with its trailing white space trimmed. */
  lemma TrailingSpacesAddNoWords(front: string)
    ensures Words(front, true) == Words(TrimEnd(front), true)
  {
    var t := TrimEnd(front);
    TrimEndShape(front);
    var tail := front[|t|..];
    assert IsBlank(tail) by {
      forall i | 0 <= i < |tail| ensures IsSpace(tail[i]) {
        assert tail[i] == front[|t| + i];
      }
    }
    assert front == t + tail;
    WordsBeforeSpaces(t, tail, true);
  }

  /** Going through a word start or a run start: word starts exceed run starts by where the text ends. */
  lemma {:induction false} WordsAndRuns(s: string, afterSpace: bool)
    ensures Words(s, afterSpace) + (if afterSpace then 0 else 1)
         == SpaceRuns(s, !afterSpace) + (if s == [] then (if afterSpace then 0 else 1) else if IsSpace(s[|s| - 1]) then 0 else 1)
  {
    if s != [] {
      WordsAndRuns(s[1..], IsSpace(s[0]));
      if |s| > 1 {
        assert s[1..][|s[1..]| - 1] == s[|s| - 1];
      }
    }
  }

  /** Leading white space adds no word. */
  lemma {:induction false} WordsAfterSpaces(spaces: string, s: string)
    requires IsBlank(spaces)
    ensures Words(spaces + s, true) == Words(s, true)
  {
    if spaces != [] {
      assert (spaces + s)[0] == spaces[0] && IsSpace(spaces[0]);
      assert (spaces + s)[1..] == spaces[1..] + s;
      assert IsBlank(spaces[1..]) by {
        forall i | 0 <= i < |spaces[1..]| ensures IsSpace(spaces[1..][i]) {
          assert spaces[1..][i] == spaces[i + 1];
        }
      }
      WordsAfterSpaces(spaces[1..], s);
    } else {
      assert spaces + s == s;
    }
  }

  /** Trailing white space adds no word. */
  lemma {:induction false} WordsBeforeSpaces(s: string, spaces: string, afterSpace: bool)
    requires IsBlank(spaces)
    ensures Words(s + spaces, afterSpace) == Words(s, afterSpace)
  {
    if s == [] {
      assert s + spaces == spaces;
      NoWordsInSpaces(spaces, afterSpace);
    } else {
      assert (s + spaces)[1..] == s[1..] + spaces;
      WordsBeforeSpaces(s[1..], spaces, IsSpace(s[0]));
    }
  }

  lemma {:induction false} NoWordsInSpaces(spaces: string, afterSpace: bool)
    requires IsBlank(spaces)
    ensures Words(spaces, afterSpace) == 0
  {
    if spaces != [] {
      NoWordsInSpaces(spaces[1..], true);
    }
  }

  /** "N word" with an "s" for every count but 1. */
  function WordLabel(n: nat): (shown: string)
    ensures EndsWith(shown, "s") <==> n != 1
  {
    var shown := NatToString(n) + " word" + (if n != 1 then "s" else "");
    assert n == 1 ==> shown[|shown| - 1..] == "d";
    shown
  }

  /** The label reads back: `parseInt` of it is the count, and what follows the number is " word" or " words". */
  lemma WordLabelReadsBack(n: nat)
    ensures ParseLeadingInt(WordLabel(n)) == Some(n)
    ensures var p := NatToString(n); |p| < |WordLabel(n)| && WordLabel(n)[..|p|] == p
    ensures WordLabel(n)[|NatToString(n)|..] == if n == 1 then " word" else " words"
  {
    var p := NatToString(n);
    var rest := " word" + (if n != 1 then "s" else "");
    assert WordLabel(n) == p + rest;
    LeadingDigitsBefore(p, rest);
    ParsePrinted(n);
  }

  /** The instant the timestamp counts from: the last save, else the creation. */
  function LastEdit(n: Note): int {
    n.updated.GetOr(n.date)
  }

  /** `updateTimestamp`'s text; None for notes older than a day, which show a locale date instead. */
  function TimestampText(n: Note, now: int): (text: Option<string>)
    ensures text.None? <==> now - LastEdit(n) >= DayMs
    ensures now - LastEdit(n) < MinuteMs ==> text == Some("Last edited just now")
    ensures MinuteMs <= now - LastEdit(n) < HourMs ==>
              text == Some("Last edited " + NatToString((now - LastEdit(n)) / MinuteMs) + " min ago")
    ensures HourMs <= now - LastEdit(n) < DayMs ==>
              text == Some("Last edited " + NatToString((now - LastEdit(n)) / HourMs) + " hours ago")
  {
    match AgeOf(now - LastEdit(n))
    case JustNow => Some("Last edited just now")
    case MinutesAgo(m) => Some("Last edited " + NatToString(m) + " min ago")
    case HoursAgo(h) => Some("Last edited " + NatToString(h) + " hours ago")
    case Older => None
  }

  /** A note saved at `now` reads "just now" for the next minute. */
  lemma JustSavedIsJustNow(n: Note, titleInput: string, content: string, now: int, later: int)
    requires now <= later < now + MinuteMs
    ensures TimestampText(Edited(n, titleInput, content, now), later) == Some("Last edited just now")
  {
  }

  // ---------------------------------------------------------------------------------------------
  // The page

  datatype SaveStatus = Saving | SavedOk | SaveError

  class NotesManager {
    /** The list shown in the sidebar. */
    var notes: seq<Note>
    /** The note open in the editor, None (`null`) when the editor is empty. */
    var currentNote: Option<Note>

    /** The constructor and `loadNotesList`: the database's list, or an empty one when loading fails. */
    constructor (loaded: Option<seq<Note>>)
      ensures notes == loaded.GetOr([]) && currentNote == None
    {
      notes := loaded.GetOr([]);
      currentNote := None;
    }

    /** `loadNote`: opens the first note with the id; an unknown id changes nothing. */
    method LoadNote(id: int) returns (status: Option<SaveStatus>)
      modifies this
      ensures notes == old(notes)
      ensures (forall i :: 0 <= i < |notes| ==> notes[i].id != Some(id)) ==> currentNote == old(currentNote) && status == None
      ensures (exists i :: 0 <= i < |notes| && notes[i].id == Some(id)) ==>
                && status == Some(SavedOk) && currentNote.Some? && currentNote.value in notes
                && currentNote.value.id == Some(id)
      ensures forall i :: 0 <= i < |notes| && notes[i].id == Some(id) && (forall k :: 0 <= k < i ==> notes[k].id != Some(id)) ==>
                currentNote == Some(notes[i])
    {
      var idx := FindIndex(notes, n => SameId(n, Some(id)));
      if idx.None? {
        return None;
      }
      currentNote := Some(notes[idx.value]);
      status := Some(SavedOk);
    }

    /** `createNewNote`: an empty, unsaved note dated `now`. */
    method CreateNewNote(now: int)
      modifies this
      ensures currentNote == Some(Note(None, "", "", now, None)) && notes == old(notes)
    {
      currentNote := Some(Note(None, "", "", now, None));
    }

    /**
     * `saveCurrentNote`, with `stored` the id the database returns (None when the write fails).
     * The editor's fields go into the open note first. A first save takes the returned id and puts
     * the note at the head of the list; a later one writes it over its entry; then the list is
     * sorted newest first. When the write fails the note keeps the new fields, and so does its
     * entry in the list, which is the same object in the page; the order is left alone.
     */
    method SaveCurrentNote(titleInput: string, content: string, now: int, stored: Option<int>)
      returns (status: Option<SaveStatus>)
      modifies this
      ensures old(currentNote).None? ==> notes == old(notes) && currentNote == None && status == None
      ensures old(currentNote).Some? ==>
                var e := Edited(old(currentNote).value, titleInput, content, now);
                && currentNote.Some? && currentNote.value.title == StoredTitle(titleInput)
                && currentNote.value.content == content && currentNote.value.updated == Some(now)
                && (stored.None? ==> status == Some(SaveError) && currentNote == Some(e)
                                     && notes == if IsSaved(e) then Replaced(old(notes), e) else old(notes))
                && (stored.Some? && !IsSaved(e) ==>
                      status == Some(SavedOk) && currentNote == Some(e.(id := stored))
                      && notes == ByNewest([e.(id := stored)] + old(notes)))
                && (stored.Some? && IsSaved(e) ==>
                      status == Some(SavedOk) && currentNote == Some(e)
                      && notes == ByNewest(Replaced(old(notes), e)))
    {
      if currentNote.None? {
        return None;
      }
      var note := Edited(currentNote.value, titleInput, content, now);
      currentNote := Some(note);
      if stored.None? {
        if IsSaved(note) {
          notes := Replaced(notes, note);
        }
        return Some(SaveError);
      }
      if !IsSaved(note) {
        note := note.(id := stored);
        currentNote := Some(note);
        notes := [note] + notes;
      } else {
        var idx := FindIndex(notes, n => SameId(n, note.id));
        if idx.Some? {
          notes := notes[idx.value := note];
        }
      }
      notes := ByNewest(notes);
      status := Some(SavedOk);
    }

    /**
     * `deleteCurrentNote`, with `confirmed` the user's answer and `deleted` whether the database
     * delete succeeds. A saved note's entries leave the list; the editor closes, also for a note
     * never saved. A failed delete changes nothing.
     */
    method DeleteCurrentNote(confirmed: bool, deleted: bool) returns (closed: bool)
      modifies this
      ensures closed <==> old(currentNote).Some? && confirmed && (deleted || !IsSaved(old(currentNote).value))
      ensures !closed ==> notes == old(notes) && currentNote == old(currentNote)
      ensures closed ==> currentNote == None
      ensures closed && IsSaved(old(currentNote).value) ==> notes == WithoutId(old(notes), old(currentNote).value.id)
      ensures closed && !IsSaved(old(currentNote).value) ==> notes == old(notes)
    {
      if currentNote.None? || !confirmed {
        return false;
      }
      var note := currentNote.value;
      if IsSaved(note) {
        if !deleted {
          return false;
        }
        notes := WithoutId(notes, note.id);
      }
      currentNote := None;
      closed := true;
    }
  }

  /** After a successful save the list is newest first and the open note is in it. */
  lemma SaveSortsAndKeeps(notes: seq<Note>, e: Note, stored: int)
    requires !IsSaved(e)
    ensures Sorted(ByNewest([e.(id := Some(stored))] + notes), NewerFirst)
    ensures e.(id := Some(stored)) in ByNewest([e.(id := Some(stored))] + notes)
  {
    FirstSaveAddsOnce(notes, e.(id := Some(stored)));
  }
}

=== FILE: quiz.dfy ===
/**
 * The quiz page (quiz.js): a constant bank of five questions per topic and a session that draws up
 * to five of them, scores each answer once and reports a rounded percentage with a message.
 */
module Quiz {
  import opened Base

  /** The text of a question: the prompt, the answer options and the explanation shown once answered. */
  datatype Wording = Wording(question: string, options: seq<string>, explanation: string)

  /**
   * A question as the session handles it: its place in its topic's wording table, the number of
   * options it offers and the index of the right one. The wording is kept apart from the banks so
   * that reasoning about a session does not carry the text along.
   */
  datatype Question = Question(number: nat, optionCount: nat, correct: int)

  const CognitiveDevWording: seq<Wording> := [
    Wording("According to Piaget, at what stage do children develop the ability to think abstractly and hypothetically?",
      ["Sensorimotor", "Preoperational", "Concrete Operational", "Formal Operational"],
      "The Formal Operational stage (ages 12+) is when abstract thinking and hypothetical reasoning emerge."),
    Wording("What is the zone of proximal development (ZPD) according to Vygotsky?",
      ["The gap between what a child can do alone vs. with help", "The physical growth zone of the brain", "The age range for optimal learning", "The distance between schools and homes"],
      "ZPD refers to what a learner can do with guidance that they cannot do alone."),
    Wording("Which cognitive process improves significantly during emerging adulthood?",
      ["Object permanence", "Executive function", "Language acquisition", "Motor control"],
      "Executive function, including planning and impulse control, continues developing into the mid-20s."),
    Wording("What is 'scaffolding' in educational psychology?",
      ["A teaching method that removes support gradually", "Building physical structures", "Testing memory capacity", "Group learning techniques"],
      "Scaffolding involves providing support that is gradually removed as the learner becomes competent."),
    Wording("In information processing theory, what is 'working memory'?",
      ["Long-term storage of facts", "Short-term processing of current information", "Unconscious memory processing", "Memory during sleep"],
      "Working memory holds and manipulates information for brief periods during cognitive tasks.")
  ]

  const CognitiveDevBank: seq<Question> := [Question(0, 4, 3), Question(1, 4, 0), Question(2, 4, 1), Question(3, 4, 0), Question(4, 4, 1)]

  const LifespanWording: seq<Wording> := [
    Wording("According to Erikson, what is the primary developmental task of emerging adulthood (ages 18-25)?",
      ["Identity vs. Role Confusion", "Intimacy vs. Isolation", "Generativity vs. Stagnation", "Integrity vs. Despair"],
      "Emerging adults face Intimacy vs. Isolation, focusing on forming close relationships."),
    Wording("What percentage of emerging adults return to their parents' home at least once?",
      ["10%", "25%", "40%", "60%"],
      "About 40% of emerging adults experience 'boomeranging' back home."),
    Wording("Which attachment style is associated with fear of intimacy and difficulty trusting partners?",
      ["Secure", "Anxious-preoccupied", "Dismissive-avoidant", "Fearful-avoidant"],
      "Fearful-avoidant attachment combines anxiety about relationships with avoidance of closeness."),
    Wording("Arnett identified five features of emerging adulthood. Which is NOT one of them?",
      ["Identity exploration", "Instability", "Self-focus", "Career establishment"],
      "The five features are identity exploration, instability, self-focus, feeling in-between, and possibilities/optimism."),
    Wording("At what age does the prefrontal cortex typically reach full maturity?",
      ["16", "18", "21", "25"],
      "The prefrontal cortex, responsible for executive function, typically matures around age 25.")
  ]

  const LifespanBank: seq<Question> := [Question(0, 4, 1), Question(1, 4, 2), Question(2, 4, 3), Question(3, 4, 3), Question(4, 4, 3)]

  const LearningWording: seq<Wording> := [
    Wording("In classical conditioning, what is the term for a previously neutral stimulus that comes to elicit a response?",
      ["Unconditioned stimulus", "Conditioned stimulus", "Unconditioned response", "Conditioned response"],
      "The conditioned stimulus (CS) acquires the ability to trigger a response through association."),
    Wording("What type of reinforcement increases behavior by removing an aversive stimulus?",
      ["Positive reinforcement", "Negative reinforcement", "Positive punishment", "Negative punishment"],
      "Negative reinforcement strengthens behavior by stopping or avoiding something unpleasant."),
    Wording("According to Bandura's social learning theory, what is 'vicarious reinforcement'?",
      ["Learning from direct experience", "Learning by observing others' consequences", "Self-reward for achievement", "Punishment avoidance"],
      "Vicarious reinforcement occurs when observing others being rewarded strengthens the observer's behavior."),
    Wording("Which memory system has virtually unlimited capacity and can store information for a lifetime?",
      ["Sensory memory", "Working memory", "Short-term memory", "Long-term memory"],
      "Long-term memory has enormous capacity and can retain information indefinitely."),
    Wording("What is 'metacognition'?",
      ["Thinking about thinking", "Learning motor skills", "Group decision making", "Emotional intelligence"],
      "Metacognition involves awareness and understanding of one's own thought processes.")
  ]

  const LearningBank: seq<Question> := [Question(0, 4, 1), Question(1, 4, 1), Question(2, 4, 1), Question(3, 4, 3), Question(4, 4, 0)]

  const SocialWording: seq<Wording> := [
    Wording("What is the 'fundamental attribution error'?",
      ["Overestimating situational factors", "Overestimating dispositional factors in others", "Underestimating our own abilities", "Overestimating group consensus"],
      "We tend to attribute others' behavior to their character while ignoring situational factors."),
    Wording("In Asch's conformity experiments, what percentage of participants conformed to the incorrect majority at least once?",
      ["25%", "50%", "75%", "95%"],
      "About 75% of participants conformed to the incorrect majority at least once."),
    Wording("What is 'groupthink'?",
      ["Thinking independently in groups", "Desire for conformity leading to poor decisions", "Brainstorming effectively", "Conflict resolution in teams"],
      "Groupthink occurs when the desire for harmony overrides realistic appraisal of alternatives."),
    Wording("According to the bystander effect, when are people LESS likely to help?",
      ["When alone", "When others are present", "During emergencies", "When asked directly"],
      "The presence of others diffuses responsibility, making individuals less likely to help."),
    Wording("What is cognitive dissonance?",
      ["Mental fatigue", "Discomfort from conflicting beliefs/actions", "Difficulty concentrating", "Social anxiety"],
      "Cognitive dissonance is the mental discomfort from holding contradictory beliefs or behaviors.")
  ]

  const SocialBank: seq<Question> := [Question(0, 4, 1), Question(1, 4, 2), Question(2, 4, 1), Question(3, 4, 1), Question(4, 4, 1)]

  /** The topics the quiz offers, keyed by the buttons' `data-topic` values. */
  const QuizData: map<string, seq<Question>> :=
    map["cognitive-dev" := CognitiveDevBank, "lifespan" := LifespanBank, "learning" := LearningBank, "social" := SocialBank]

  /** The wording of each topic's questions, in bank order. */
  const QuizWording: map<string, seq<Wording>> :=
    map["cognitive-dev" := CognitiveDevWording, "lifespan" := LifespanWording, "learning" := LearningWording, "social" := SocialWording]

  /** Each question of `bank` sits at its own number in `wording` and counts that entry's options. */
  predicate Describes(bank: seq<Question>, wording: seq<Wording>) {
    && |bank| == |wording|
    && forall i :: 0 <= i < |bank| ==> bank[i].number == i && bank[i].optionCount == |wording[i].options|
  }

  lemma CognitiveDevWordingMatches()
    ensures Describes(CognitiveDevBank, CognitiveDevWording)
  {
  }

  lemma LifespanWordingMatches()
    ensures Describes(LifespanBank, LifespanWording)
  {
  }

  lemma LearningWordingMatches()
    ensures Describes(LearningBank, LearningWording)
  {
  }

  lemma SocialWordingMatches()
    ensures Describes(SocialBank, SocialWording)
  {
  }

  const QuestionsPerQuiz := 5

  /** The index of the right answer names one of the options. */
  predicate WellFormed(q: Question) {
    0 <= q.correct < q.optionCount
  }

  /** Every bank holds five questions, and every question's answer index is in range. */
  lemma BanksWellFormed()
    ensures forall t :: t in QuizData ==> |QuizData[t]| == QuestionsPerQuiz
    ensures forall t, i :: t in QuizData && 0 <= i < |QuizData[t]| ==> WellFormed(QuizData[t][i])
  {
    assert QuizData.Keys == {"cognitive-dev", "lifespan", "learning", "social"};
    forall t, i | t in QuizData && 0 <= i < |QuizData[t]| ensures WellFormed(QuizData[t][i]) {
      if t == "cognitive-dev" {
        assert QuizData[t] == CognitiveDevBank;
      } else if t == "lifespan" {
        assert QuizData[t] == LifespanBank;
      } else if t == "learning" {
        assert QuizData[t] == LearningBank;
      } else {
        assert QuizData[t] == SocialBank;
      }
    }
  }

  /** `.slice(0, 5)` of the shuffled bank. */
  function Draw(shuffled: seq<Question>): (r: seq<Question>)
    ensures |r| <= QuestionsPerQuiz && |r| <= |shuffled|
    ensures |shuffled| >= QuestionsPerQuiz ==> |r| == QuestionsPerQuiz
    ensures multiset(r) <= multiset(shuffled)
  {
    var n := if |shuffled| < QuestionsPerQuiz then |shuffled| else QuestionsPerQuiz;
    assert shuffled == shuffled[..n] + shuffled[n..];
    shuffled[..n]
  }

  /** Whatever order the shuffle produces, a drawn quiz has five questions, each taken from the topic's bank. */
  lemma DrawFromBank(topic: string, shuffled: seq<Question>)
    requires topic in QuizData && multiset(shuffled) == multiset(QuizData[topic])
    ensures |Draw(shuffled)| == QuestionsPerQuiz
    ensures forall i :: 0 <= i < |Draw(shuffled)| ==> Draw(shuffled)[i] in QuizData[topic] && WellFormed(Draw(shuffled)[i])
  {
    BanksWellFormed();
    var r := Draw(shuffled);
    assert |shuffled| == |multiset(shuffled)| == |QuizData[topic]|;
    forall i | 0 <= i < |r| ensures r[i] in QuizData[topic] && WellFormed(r[i]) {
      assert r[i] in multiset(r);
    }
  }

  /** `Math.round(score / total * 100)`; None stands for NaN, the result of an empty quiz. */
  function Percentage(score: nat, total: nat): (p: Option<int>)
    ensures p.None? <==> total == 0
    ensures p.Some? ==> 2 * total * p.value <= 200 * score + total < 2 * total * p.value + 2 * total
    ensures p.Some? && score <= total ==> 0 <= p.value <= 100
  {
    if total == 0 then None
    else
      var p := (200 * score + total) / (2 * total);
      RoundedBounds(score, total, p);
      Some(p)
  }

  lemma RoundedBounds(score: nat, total: nat, p: int)
    requires total > 0 && p == (200 * score + total) / (2 * total)
    ensures 2 * total * p <= 200 * score + total < 2 * total * p + 2 * total
    ensures score <= total ==> 0 <= p <= 100
  {
    var x, d := 200 * score + total, 2 * total;
    DivBounds(x, d);
    if p < 0 {
      MulMonotone(d, p, -1);
    }
    if score <= total && p > 100 {
      MulMonotone(d, 101, p);
    }
  }

  lemma DivBounds(x: int, d: int)
    requires d > 0
    ensures d * (x / d) <= x < d * (x / d) + d
  {
  }

  lemma MulMonotone(d: int, a: int, b: int)
    requires d > 0 && a <= b
    ensures d * a <= d * b
  {
  }

  datatype Message = Excellent | GoodJob | KeepPracticing

  /** The results message: 80 and up, 60 and up, anything else (NaN included). */
  function ResultMessage(p: Option<int>): (m: Message)
    ensures m == Excellent <==> p.Some? && p.value >= 80
    ensures m == GoodJob <==> p.Some? && 60 <= p.value < 80
    ensures m == KeepPracticing <==> p.None? || p.value < 60
  {
    if p.Some? && p.value >= 80 then Excellent
    else if p.Some? && p.value >= 60 then GoodJob
    else KeepPracticing
  }

  /** Full marks show 100% and "Excellent"; no correct answer shows 0% and "Keep practicing". */
  lemma ExtremeScores(n: nat)
    requires n > 0
    ensures Percentage(n, n) == Some(100) && ResultMessage(Percentage(n, n)) == Excellent
    ensures Percentage(0, n) == Some(0) && ResultMessage(Percentage(0, n)) == KeepPracticing
  {
    assert 2 * n * 100 <= 200 * n + n < 2 * n * 101;
  }

  datatype QuizResult = QuizResult(topic: Option<string>, score: int, total: int, percentage: Option<int>, message: Message)

  class QuizSession {
    var currentTopic: Option<string>
    var questions: seq<Question>
    var currentQuestion: int
    var score: int
    var answered: bool

    /** The score never exceeds the questions answered so far, nor the questions drawn. */
    ghost predicate Valid()
      reads this
    {
      && 0 <= currentQuestion
      && 0 <= score <= |questions|
      && score <= currentQuestion + (if answered then 1 else 0)
    }

    constructor ()
      ensures Valid()
      ensures currentTopic == None && questions == [] && currentQuestion == 0 && score == 0 && !answered
    {
      currentTopic := None;
      questions := [];
      currentQuestion := 0;
      score := 0;
      answered := false;
    }

    /** `loadQuestion`'s state change: the shown question is open for an answer. */
    method LoadQuestion()
      modifies this
      requires Valid() && currentQuestion < |questions| && score <= currentQuestion
      ensures Valid()
      ensures !answered
      ensures currentTopic == old(currentTopic) && questions == old(questions)
      ensures currentQuestion == old(currentQuestion) && score == old(score)
    {
      answered := false;
    }

    /**
     * `selectTopic`: a known topic starts a fresh quiz over the first five questions of the shuffled
     * bank; an unknown one fails after recording the topic.
     */
    method SelectTopic(topic: string, shuffled: seq<Question>)
      modifies this
      requires Valid()
      requires topic in QuizData ==> multiset(shuffled) == multiset(QuizData[topic])
      ensures Valid()
      ensures currentTopic == Some(topic)
      ensures topic in QuizData ==>
                questions == Draw(shuffled) && currentQuestion == 0 && score == 0 && !answered
      ensures topic !in QuizData ==>
                questions == old(questions) && currentQuestion == old(currentQuestion)
                && score == old(score) && answered == old(answered)
    {
      currentTopic := Some(topic);
      if topic !in QuizData {
        return;
      }
      DrawFromBank(topic, shuffled);
      questions := Draw(shuffled);
      currentQuestion := 0;
      score := 0;
      LoadQuestion();
    }

    /**
     * `selectAnswer`: ignored once the question is answered; otherwise marks it answered and scores one
     * point exactly when `index` is the right answer. With no question showing, it fails after marking.
     */
    method SelectAnswer(index: int) returns (correct: bool)
      modifies this
      requires Valid()
      ensures Valid()
      ensures currentTopic == old(currentTopic) && questions == old(questions) && currentQuestion == old(currentQuestion)
      ensures answered
      ensures old(answered) ==> score == old(score) && !correct
      ensures !old(answered) ==>
                (correct <==> currentQuestion < |questions| && index == questions[currentQuestion].correct)
      ensures score == old(score) + (if correct then 1 else 0)
    {
      if answered {
        return false;
      }
      answered := true;
      if currentQuestion >= |questions| {
        return false;
      }
      correct := index == questions[currentQuestion].correct;
      if correct {
        score := score + 1;
      }
    }

    /** `nextQuestion`: moves on; past the last question the results are shown and returned. */
    method NextQuestion() returns (result: Option<QuizResult>)
      modifies this
      requires Valid()
      ensures Valid()
      ensures currentTopic == old(currentTopic) && questions == old(questions) && score == old(score)
      ensures currentQuestion == old(currentQuestion) + 1
      ensures result.Some? <==> currentQuestion >= |questions|
      ensures result.None? ==> !answered
      ensures result.Some? ==> answered == old(answered)
      ensures result.Some? ==>
                var p := Percentage(score, |questions|);
                result.value == QuizResult(currentTopic, score, |questions|, p, ResultMessage(p))
    {
      currentQuestion := currentQuestion + 1;
      if currentQuestion >= |questions| {
        var p := Percentage(score, |questions|);
        result := Some(QuizResult(currentTopic, score, |questions|, p, ResultMessage(p)));
      } else {
        result := None;
        LoadQuestion();
      }
    }

    /** `restartQuiz`: back to the topic list with everything cleared. */
    method RestartQuiz()
      modifies this
      ensures Valid()
      ensures currentTopic == None && questions == [] && currentQuestion == 0 && score == 0 && !answered
    {
      currentTopic := None;
      questions := [];
      currentQuestion := 0;
      score := 0;
      answered := false;
    }

    /** `quitQuiz`: restarts only when the user confirms. */
    method QuitQuiz(confirmed: bool)
      modifies this
      requires Valid()
      ensures Valid()
      ensures confirmed ==> currentTopic == None && questions == [] && currentQuestion == 0 && score == 0 && !answered
      ensures !confirmed ==>
                && currentTopic == old(currentTopic) && questions == old(questions)
                && currentQuestion == old(currentQuestion) && score == old(score) && answered == old(answered)
    {
      if confirmed {
        RestartQuiz();
      }
    }
  }
}

=== FILE: relative_time.dfy ===
/**
 * The "how long ago" buckets shared by the notes editor (notes.js:277-283) and the upload list
 * (upload.js:248-251): under a minute, whole minutes under an hour, whole hours under a day, else a date.
 */
module RelativeTime {

  const MinuteMs := 60000
  const HourMs := 3600000
  const DayMs := 86400000

  datatype Age = JustNow | MinutesAgo(minutes: int) | HoursAgo(hours: int) | Older

  /** The bucket for `diff` milliseconds between the stored instant and now (negative when in the future). */
  function AgeOf(diff: int): (a: Age)
    ensures a.JustNow? <==> diff < MinuteMs
    ensures a.MinutesAgo? <==> MinuteMs <= diff < HourMs
    ensures a.HoursAgo? <==> HourMs <= diff < DayMs
    ensures a.MinutesAgo? ==> 1 <= a.minutes < 60 && a.minutes * MinuteMs <= diff < (a.minutes + 1) * MinuteMs
    ensures a.HoursAgo? ==> 1 <= a.hours < 24 && a.hours * HourMs <= diff < (a.hours + 1) * HourMs
  {
    if diff < MinuteMs then JustNow
    else if diff < HourMs then MinutesAgo(diff / MinuteMs)
    else if diff < DayMs then HoursAgo(diff / HourMs)
    else Older
  }

  /** Orders the buckets from freshest to oldest, the count inside a bucket included. */
  function Staleness(a: Age): int {
    match a
    case JustNow => 0
    case MinutesAgo(m) => m
    case HoursAgo(h) => 60 * h
    case Older => 24 * 60
  }

  /** A longer time since the edit never shows a fresher label. */
  lemma AgeMonotone(d1: int, d2: int)
    requires d1 <= d2
    ensures Staleness(AgeOf(d1)) <= Staleness(AgeOf(d2))
  {
    var a1, a2 := AgeOf(d1), AgeOf(d2);
    if a1.MinutesAgo? && a2.HoursAgo? {
      assert a1.minutes < 60 <= 60 * a2.hours;
    }
  }
}

=== FILE: schedule.dfy ===
/**
 * The schedule page (schedule.js): an in-memory event list with create / update / delete through an
 * edit modal, the per-day agenda, the "upcoming" list, 12-hour time labels and the 42-cell month grid.
 */
module Schedule {
  import opened Base
  import opened Text
  import opened Sorting
  import opened Calendar

  /** A stored event. `date` is the calendar day it falls on; `time` is the form's "HH:MM" text. */
  datatype Event = Event(id: int, title: string, date: Date, time: string, duration: string, category: string)

  /** What the event form submits (schedule.js:380-386). */
  datatype EventData = EventData(title: string, date: Date, time: string, duration: string, category: string)

  const UpcomingLimit := 20
  const GridCells := 42
  const PreviewLimit := 3

  /** The five sample events shown when nothing is stored, all dated today (schedule.js:65-71). */
  function SampleEvents(today: Date): seq<Event> {
    [ Event(1, "Morning Mindfulness", today, "06:45", "15 min", "wellness"),
      Event(2, "Dissertation Meeting", today, "09:00", "1 hour", "meeting"),
      Event(3, "Cognitive Development Class", today, "10:00", "3 hours", "class"),
      Event(4, "Quals Study Session", today, "14:00", "2 hours", "quals"),
      Event(5, "Report Writing", today, "20:30", "2 hours", "reports") ]
  }

  /** JavaScript truthiness of the edited id: null and 0 are both "not editing". */
  predicate IsEditing(editing: Option<int>) {
    editing.Some? && editing.value != 0
  }

  // ---------------------------------------------------------------------------------------------
  // Ids, update, create and delete as functions of the event list

  /** `Math.max(...ids, 0)`. */
  function MaxId(events: seq<Event>): (m: int)
    ensures m >= 0
    ensures forall i :: 0 <= i < |events| ==> events[i].id <= m
    ensures m == 0 || exists i :: 0 <= i < |events| && events[i].id == m
  {
    if events == [] then 0
    else
      var rest := MaxId(events[1..]);
      assert forall i :: 1 <= i < |events| ==> events[i] == events[1..][i - 1];
      if events[0].id > rest then events[0].id else rest
  }

  /** The id a new event receives: one more than the largest id, and at least 1. */
  function NextId(events: seq<Event>): (n: int)
    ensures n >= 1
    ensures forall i :: 0 <= i < |events| ==> events[i].id < n
  {
    MaxId(events) + 1
  }

  predicate HasId(e: Event, id: int) { e.id == id }

  /** The event `e` with the form's fields written over it; the id stays. */
  function WithData(e: Event, d: EventData): Event {
    Event(e.id, d.title, d.date, d.time, d.duration, d.category)
  }

  /** Editing: the first event with `id` takes the form's fields in place; nothing happens when there is none. */
  function Updated(events: seq<Event>, id: int, d: EventData): seq<Event> {
    match FindIndex(events, e => HasId(e, id))
    case None => events
    case Some(i) => events[i := WithData(events[i], d)]
  }

  /** Creating: the new event goes to the end with the next id. */
  function Created(events: seq<Event>, d: EventData): seq<Event> {
    events + [Event(NextId(events), d.title, d.date, d.time, d.duration, d.category)]
  }

  /** Deleting: every event with `id` is dropped. */
  function Deleted(events: seq<Event>, id: int): seq<Event> {
    Filter(events, e => !HasId(e, id))
  }

  predicate DistinctIds(events: seq<Event>) {
    forall i, j :: 0 <= i < j < |events| ==> events[i].id != events[j].id
  }

  /** The new event's id is larger than every stored id, the new event is last and the others are untouched. */
  lemma CreatedShape(events: seq<Event>, d: EventData)
    ensures var r := Created(events, d);
      && |r| == |events| + 1 && r[..|events|] == events
      && r[|events|].id == NextId(events)
      && (forall i :: 0 <= i < |events| ==> r[i].id < r[|events|].id)
      && WithData(r[|events|], d) == r[|events|]
      && (DistinctIds(events) ==> DistinctIds(r))
  {
  }

  /**
   * Editing keeps every position and every id; the edited event is the first with `id` and carries
   * the form's fields; every other event is unchanged; an unknown id changes nothing.
   */
  lemma UpdatedShape(events: seq<Event>, id: int, d: EventData)
    ensures var r := Updated(events, id, d);
      && |r| == |events|
      && (forall i :: 0 <= i < |r| ==> r[i].id == events[i].id)
      && ((forall i :: 0 <= i < |events| ==> events[i].id != id) ==> r == events)
      && (forall i :: 0 <= i < |events| && events[i].id == id && (forall k :: 0 <= k < i ==> events[k].id != id) ==>
            r[i] == WithData(events[i], d) && forall k :: 0 <= k < |r| && k != i ==> r[k] == events[k])
  {
    var r := Updated(events, id, d);
    var found := FindIndex(events, e => HasId(e, id));
    forall i | 0 <= i < |events| && events[i].id == id && (forall k :: 0 <= k < i ==> events[k].id != id)
      ensures r[i] == WithData(events[i], d)
    {
    }
  }

  /** Deleting leaves no event with `id` and every other event with its multiplicity. */
  lemma DeletedShape(events: seq<Event>, id: int)
    ensures var r := Deleted(events, id);
      && (forall i :: 0 <= i < |r| ==> r[i].id != id)
      && (forall e: Event :: e.id != id ==> multiset(r)[e] == multiset(events)[e])
      && (forall e: Event :: e.id == id ==> e !in r)
  {
    var r := Deleted(events, id);
    forall i | 0 <= i < |r| ensures r[i].id != id {
      assert r[i] in r;
    }
  }

  /** Deleting keeps the order of the events it keeps: it distributes over concatenation. */
  lemma DeletedKeepsOrder(a: seq<Event>, b: seq<Event>, id: int)
    ensures Deleted(a + b, id) == Deleted(a, id) + Deleted(b, id)
  {
    FilterAppend(a, b, e => !HasId(e, id));
  }

  /** Creating an event and then deleting its id gives back the list as it was. */
  lemma {:induction false} CreateThenDelete(events: seq<Event>, d: EventData)
    ensures Deleted(Created(events, d), NextId(events)) == events
  {
    var n := NextId(events);
    var e := Event(n, d.title, d.date, d.time, d.duration, d.category);
    DeletedKeepsOrder(events, [e], n);
    assert Deleted([e], n) == [];
    NothingToDelete(events, n);
  }

  lemma {:induction false} NothingToDelete(events: seq<Event>, id: int)
    requires forall i :: 0 <= i < |events| ==> events[i].id != id
    ensures Deleted(events, id) == events
  {
    if events != [] {
      NothingToDelete(events[1..], id);
    }
  }

  // ---------------------------------------------------------------------------------------------
  // The per-day agenda and the upcoming list

  predicate OnDay(e: Event, day: int, month: int, year: int) {
    e.date.day == day && e.date.month == month && e.date.year == year
  }

  /** `a.time.localeCompare(b.time) <= 0`, taken as code-unit order of the "HH:MM" strings. */
  predicate TimeLe(a: Event, b: Event) {
    LexLe(a.time, b.time)
  }

  predicate DateBefore(a: Date, b: Date) {
    a.year < b.year || (a.year == b.year && (a.month < b.month || (a.month == b.month && a.day < b.day)))
  }

  /** The upcoming list's comparator: by date, then by time string. */
  predicate DateTimeLe(a: Event, b: Event) {
    DateBefore(a.date, b.date) || (a.date == b.date && LexLe(a.time, b.time))
  }

  lemma TimeLeIsPreorder(s: seq<Event>)
    ensures PreorderOn(s, TimeLe)
  {
    forall i, j | 0 <= i < |s| && 0 <= j < |s| ensures TimeLe(s[i], s[j]) || TimeLe(s[j], s[i]) {
      LexLeTotal(s[i].time, s[j].time);
    }
    forall i, j, k | 0 <= i < |s| && 0 <= j < |s| && 0 <= k < |s| && TimeLe(s[i], s[j]) && TimeLe(s[j], s[k])
      ensures TimeLe(s[i], s[k])
    {
      LexLeTransitive(s[i].time, s[j].time, s[k].time);
    }
  }

  lemma DateTimeLeIsPreorder(s: seq<Event>)
    ensures PreorderOn(s, DateTimeLe)
  {
    forall i, j | 0 <= i < |s| && 0 <= j < |s| ensures DateTimeLe(s[i], s[j]) || DateTimeLe(s[j], s[i]) {
      LexLeTotal(s[i].time, s[j].time);
    }
    forall i, j, k | 0 <= i < |s| && 0 <= j < |s| && 0 <= k < |s| && DateTimeLe(s[i], s[j]) && DateTimeLe(s[j], s[k])
      ensures DateTimeLe(s[i], s[k])
    {
      if s[i].date == s[j].date == s[k].date {
        LexLeTransitive(s[i].time, s[j].time, s[k].time);
      }
    }
  }

  /**
   * `getEventsForDay`: exactly the events on that day (each as often as it is stored), ordered by
   * time string.
   */
  function EventsForDay(events: seq<Event>, day: int, month: int, year: int): (r: seq<Event>)
    ensures forall e {:trigger multiset(r)[e]} :: multiset(r)[e] == if OnDay(e, day, month, year) then multiset(events)[e] else 0
    ensures forall i :: 0 <= i < |r| ==> OnDay(r[i], day, month, year)
    ensures Sorted(r, TimeLe)
  {
    var matching := Filter(events, e => OnDay(e, day, month, year));
    TimeLeIsPreorder(matching);
    var r := SortBy(matching, TimeLe);
    forall i | 0 <= i < |r| ensures OnDay(r[i], day, month, year) {
      assert r[i] in multiset(r);
      assert multiset(r)[r[i]] == multiset(matching)[r[i]];
    }
    r
  }

  predicate IsUpcoming(e: Event, today: Date) {
    !DateBefore(e.date, today)
  }

  /** The events dated today or later, in stored order. */
  function Eligible(events: seq<Event>, today: Date): (r: seq<Event>)
    ensures forall e :: multiset(r)[e] == if IsUpcoming(e, today) then multiset(events)[e] else 0
  {
    Filter(events, e => IsUpcoming(e, today))
  }

  /**
   * `renderUpcomingList`'s selection: events dated today or later, ordered by date then time, at most
   * twenty; when more qualify, the ones left out come no earlier than any one shown.
   */
  function Upcoming(events: seq<Event>, today: Date): (r: seq<Event>)
    ensures |r| == if |Eligible(events, today)| < UpcomingLimit then |Eligible(events, today)| else UpcomingLimit
    ensures multiset(r) <= multiset(Eligible(events, today))
    ensures forall i :: 0 <= i < |r| ==> IsUpcoming(r[i], today) && r[i] in events
    ensures Sorted(r, DateTimeLe)
    ensures forall e :: IsUpcoming(e, today) && multiset(r)[e] < multiset(events)[e] ==>
              forall i :: 0 <= i < |r| ==> DateTimeLe(r[i], e)
  {
    var sorted := ByDateAndTime(Eligible(events, today));
    var n := if |sorted| < UpcomingLimit then |sorted| else UpcomingLimit;
    SortedPrefix(sorted, DateTimeLe, n);
    UpcomingPrefixMembers(events, today, sorted, n);
    UpcomingPrefixEarliest(events, today, sorted, n);
    sorted[..n]
  }

  /** The upcoming list's order: date first, then time string. */
  function ByDateAndTime(events: seq<Event>): (r: seq<Event>)
    ensures multiset(r) == multiset(events) && |r| == |events|
    ensures Sorted(r, DateTimeLe)
  {
    DateTimeLeIsPreorder(events);
    SortBy(events, DateTimeLe)
  }

  /** Every event of the first `n` is upcoming and stored. */
  lemma UpcomingPrefixMembers(events: seq<Event>, today: Date, sorted: seq<Event>, n: nat)
    requires multiset(sorted) == multiset(Eligible(events, today))
    requires n <= |sorted|
    ensures multiset(sorted[..n]) <= multiset(Eligible(events, today))
    ensures forall i :: 0 <= i < n ==> IsUpcoming(sorted[i], today) && sorted[i] in events
  {
    assert sorted == sorted[..n] + sorted[n..];
    forall i | 0 <= i < n ensures IsUpcoming(sorted[i], today) && sorted[i] in events {
      assert sorted[i] in multiset(sorted);
    }
  }

  /** An upcoming event that is not (fully) among the first `n` comes no earlier than any of them. */
  lemma UpcomingPrefixEarliest(events: seq<Event>, today: Date, sorted: seq<Event>, n: nat)
    requires multiset(sorted) == multiset(Eligible(events, today)) && Sorted(sorted, DateTimeLe)
    requires n <= |sorted|
    ensures forall e :: IsUpcoming(e, today) && multiset(sorted[..n])[e] < multiset(events)[e] ==>
              forall i :: 0 <= i < n ==> DateTimeLe(sorted[i], e)
  {
    var r, rest := sorted[..n], sorted[n..];
    assert sorted == r + rest;
    forall e | IsUpcoming(e, today) && multiset(r)[e] < multiset(events)[e]
      ensures forall i :: 0 <= i < n ==> DateTimeLe(sorted[i], e)
    {
      assert multiset(sorted)[e] == multiset(r)[e] + multiset(rest)[e];
      assert e in multiset(rest);
      var j :| 0 <= j < |rest| && rest[j] == e;
      assert sorted[n + j] == e;
    }
  }

  // ---------------------------------------------------------------------------------------------
  // 12-hour time labels

  /** `hour % 12 || 12`. */
  function Hour12(hour: nat): (h: nat)
    ensures 1 <= h <= 12
  {
    if hour % 12 == 0 then 12 else hour % 12
  }

  /** `formatTime`: "H:MM AM/PM" from "HH:MM"; an hour that does not parse shows as 12 AM. */
  function FormatTime(timeStr: string): string {
    var hours := Before(timeStr, ':');
    var minutes := match After(timeStr, ':')
      case None => "undefined"
      case Some(rest) => Before(rest, ':');
    var hour := ParseLeadingInt(hours);
    var pm := hour.Some? && hour.value >= 12;
    var display := if hour.None? then 12 else Hour12(hour.value);
    NatToString(display) + ":" + minutes + " " + (if pm then "PM" else "AM")
  }

  /** A well-formed 24-hour "HH:MM" string. */
  predicate IsTime24(t: string) {
    && |t| == 5 && IsDigit(t[0]) && IsDigit(t[1]) && t[2] == ':' && IsDigit(t[3]) && IsDigit(t[4])
    && ParseDigits(t[..2]) < 24
  }

  /**
   * On a well-formed time the label keeps the minutes as typed, says PM exactly from 12:00 on, and its
   * hour is 12 for 0 and 12 and the hour modulo 12 otherwise: the 24-hour hour is recovered from it.
   */
  lemma FormatTimeOfWellFormed(t: string)
    requires IsTime24(t)
    ensures var h := ParseDigits(t[..2]);
      && FormatTime(t) == NatToString(Hour12(h)) + ":" + t[3..] + " " + (if h >= 12 then "PM" else "AM")
      && Hour12(h) % 12 + (if h >= 12 then 12 else 0) == h
  {
    TimeFields(t);
    Hour12Recovers(ParseDigits(t[..2]));
  }

  /** The pieces `formatTime` splits a well-formed time into: the two hour digits and the two minute digits. */
  lemma TimeFields(t: string)
    requires IsTime24(t)
    ensures Before(t, ':') == t[..2] && After(t, ':') == Some(t[3..]) && Before(t[3..], ':') == t[3..]
    ensures ParseLeadingInt(t[..2]) == Some(ParseDigits(t[..2]))
  {
    assert ':' !in t[..2] && ':' !in t[3..];
    assert t == t[..2] + [':'] + t[3..];
    BeforeFirst(t[..2], ':', t[3..]);
    BeforeAbsent(t[3..], ':');
    assert AllDigits(t[..2]);
    LeadingDigitsOfDigits(t[..2]);
  }

  /** Below 24, the 12-hour hour and the half of the day give back the hour. */
  lemma Hour12Recovers(h: nat)
    requires h < 24
    ensures Hour12(h) % 12 + (if h >= 12 then 12 else 0) == h
  {
  }

  // ---------------------------------------------------------------------------------------------
  // The month grid

  datatype GridCell =
    | PrevMonthDay(day: int)
    | MonthDay(day: int, isToday: bool, isSelected: bool, preview: seq<Event>, more: nat)
    | NextMonthDay(day: int)

  /** A day cell of the current month: today/selected flags, the first three events and the "+N more" count. */
  function DayCell(events: seq<Event>, year: int, month: int, day: int, today: Date, selected: Date): (c: GridCell)
    ensures c.MonthDay? && c.day == day
    ensures |c.preview| <= PreviewLimit
    ensures |c.preview| + c.more == |EventsForDay(events, day, month, year)|
    ensures c.preview == EventsForDay(events, day, month, year)[..|c.preview|]
    ensures c.more > 0 ==> |c.preview| == PreviewLimit
    ensures c.isToday <==> today == Date(year, month, day)
    ensures c.isSelected <==> selected == Date(year, month, day)
  {
    var dayEvents := EventsForDay(events, day, month, year);
    var shown := if |dayEvents| <= PreviewLimit then dayEvents else dayEvents[..PreviewLimit];
    var isCurrentMonth := today.month == month && today.year == year;
    MonthDay(day, isCurrentMonth && day == today.day,
             selected.day == day && selected.month == month && selected.year == year,
             shown, |dayEvents| - |shown|)
  }

  /** The greyed cells of the previous month: its last `count` days, counting up to `last`. */
  function LeadingCells(last: int, count: nat): (r: seq<GridCell>)
    ensures |r| == count
  {
    if count == 0 then [] else [PrevMonthDay(last - count + 1)] + LeadingCells(last, count - 1)
  }

  /** The cells of days 1 to `n` of the month, in order. */
  function MonthCells(events: seq<Event>, year: int, month: int, today: Date, selected: Date, n: nat): (r: seq<GridCell>)
    ensures |r| == n
  {
    Tabulate(DayCellOf(events, year, month, today, selected), n)
  }

  /** The second loop's cell for each day of `month`. */
  function DayCellOf(events: seq<Event>, year: int, month: int, today: Date, selected: Date): int -> GridCell {
    day => DayCell(events, year, month, day, today, selected)
  }

  /** The greyed cells of the next month, days 1 to `n`. */
  function TrailingCells(n: nat): (r: seq<GridCell>)
    ensures |r| == n
  {
    if n == 0 then [] else TrailingCells(n - 1) + [NextMonthDay(n)]
  }

  /** The month view of `month` of `year`: leading, current and trailing days filling six weeks. */
  function CalendarGrid(events: seq<Event>, year: int, month: int, today: Date, selected: Date): seq<GridCell>
    requires 0 <= month < 12
  {
    var first := Weekday(year, month, 1);
    var days := DaysInMonth(year, month);
    LeadingCells(DaysInPreviousMonth(year, month), first)
      + MonthCells(events, year, month, today, selected, days)
      + TrailingCells(GridCells - (first + days))
  }

  lemma {:induction false} LeadingCellsAt(last: int, count: nat)
    ensures forall i :: 0 <= i < count ==> LeadingCells(last, count)[i] == PrevMonthDay(last - count + 1 + i)
  {
    if count > 0 {
      LeadingCellsAt(last, count - 1);
    }
  }

  lemma MonthCellsAt(events: seq<Event>, year: int, month: int, today: Date, selected: Date, n: nat, d: nat)
    requires 1 <= d <= n
    ensures MonthCells(events, year, month, today, selected, n)[d - 1] == DayCell(events, year, month, d, today, selected)
  {
    TabulateAt(DayCellOf(events, year, month, today, selected), n, d);
  }

  lemma {:induction false} TrailingCellsAt(n: nat)
    ensures forall d :: 1 <= d <= n ==> TrailingCells(n)[d - 1] == NextMonthDay(d)
  {
    if n > 0 {
      TrailingCellsAt(n - 1);
    }
  }

  /**
   * The grid has 42 cells: the previous month's days up to its last day in the columns before the
   * 1st's weekday, then every day of the month, then the next month counting from its 1st.
   */
  lemma CalendarGridLayout(events: seq<Event>, year: int, month: int, today: Date, selected: Date)
    requires 0 <= month < 12
    ensures var cells := CalendarGrid(events, year, month, today, selected);
      var first := Weekday(year, month, 1); var days := DaysInMonth(year, month); var prev := DaysInPreviousMonth(year, month);
      && |cells| == GridCells
      && (forall i :: 0 <= i < first ==> cells[i] == PrevMonthDay(prev - first + 1 + i))
      && (forall d :: 1 <= d <= days ==> cells[first + d - 1] == DayCell(events, year, month, d, today, selected))
      && (forall d :: 1 <= d <= GridCells - first - days ==> cells[first + days + d - 1] == NextMonthDay(d))
  {
    GridLeadingPart(events, year, month, today, selected);
    GridMonthPart(events, year, month, today, selected);
    GridTrailingPart(events, year, month, today, selected);
  }

  lemma GridLeadingPart(events: seq<Event>, year: int, month: int, today: Date, selected: Date)
    requires 0 <= month < 12
    ensures var cells := CalendarGrid(events, year, month, today, selected);
      var first := Weekday(year, month, 1); var prev := DaysInPreviousMonth(year, month);
      forall i :: 0 <= i < first ==> cells[i] == PrevMonthDay(prev - first + 1 + i)
  {
    var first := Weekday(year, month, 1);
    var days := DaysInMonth(year, month);
    var lead := LeadingCells(DaysInPreviousMonth(year, month), first);
    var rest := MonthCells(events, year, month, today, selected, days) + TrailingCells(GridCells - (first + days));
    assert CalendarGrid(events, year, month, today, selected) == lead + rest;
    LeadingCellsAt(DaysInPreviousMonth(year, month), first);
  }

  lemma GridMonthPart(events: seq<Event>, year: int, month: int, today: Date, selected: Date)
    requires 0 <= month < 12
    ensures var cells := CalendarGrid(events, year, month, today, selected);
      var first := Weekday(year, month, 1); var days := DaysInMonth(year, month);
      forall d :: 1 <= d <= days ==> cells[first + d - 1] == DayCell(events, year, month, d, today, selected)
  {
    var first := Weekday(year, month, 1);
    var days := DaysInMonth(year, month);
    var lead := LeadingCells(DaysInPreviousMonth(year, month), first);
    var mid := MonthCells(events, year, month, today, selected, days);
    var tail := TrailingCells(GridCells - (first + days));
    var cells := CalendarGrid(events, year, month, today, selected);
    assert cells == lead + mid + tail;
    forall d | 1 <= d <= days ensures cells[first + d - 1] == DayCell(events, year, month, d, today, selected) {
      MonthCellsAt(events, year, month, today, selected, days, d);
      assert cells[first + d - 1] == mid[d - 1];
    }
  }

  lemma GridTrailingPart(events: seq<Event>, year: int, month: int, today: Date, selected: Date)
    requires 0 <= month < 12
    ensures var cells := CalendarGrid(events, year, month, today, selected);
      var first := Weekday(year, month, 1); var days := DaysInMonth(year, month);
      && |cells| == GridCells
      && forall d :: 1 <= d <= GridCells - first - days ==> cells[first + days + d - 1] == NextMonthDay(d)
  {
    var first := Weekday(year, month, 1);
    var days := DaysInMonth(year, month);
    var front := LeadingCells(DaysInPreviousMonth(year, month), first) + MonthCells(events, year, month, today, selected, days);
    var tail := TrailingCells(GridCells - (first + days));
    var cells := CalendarGrid(events, year, month, today, selected);
    assert cells == front + tail;
    TrailingCellsAt(GridCells - (first + days));
    forall d | 1 <= d <= GridCells - first - days ensures cells[first + days + d - 1] == NextMonthDay(d) {
      assert cells[first + days + d - 1] == tail[d - 1];
    }
  }

  /** `renderCalendar`'s three loops, building the month view cell by cell. */
  method RenderCalendar(events: seq<Event>, year: int, month: int, today: Date, selected: Date)
    returns (cells: seq<GridCell>)
    requires 0 <= month < 12
    ensures cells == CalendarGrid(events, year, month, today, selected)
  {
    var firstDay := Weekday(year, month, 1);
    var daysInMonth := DaysInMonth(year, month);
    var daysInPrevMonth := DaysInPreviousMonth(year, month);
    var leading := PrevMonthCells(daysInPrevMonth, firstDay);
    var current := AppendMonthDays(leading, events, year, month, today, selected, daysInMonth);
    cells := AppendNextMonthDays(current, GridCells - (firstDay + daysInMonth));
  }

  /** The first loop: the previous month's last `firstDay` days, counting down the offset. */
  method PrevMonthCells(daysInPrevMonth: int, firstDay: nat) returns (cells: seq<GridCell>)
    ensures cells == LeadingCells(daysInPrevMonth, firstDay)
  {
    cells := [];
    var i := firstDay - 1;
    while i >= 0
      invariant -1 <= i < firstDay
      invariant cells + LeadingCells(daysInPrevMonth, i + 1) == LeadingCells(daysInPrevMonth, firstDay)
    {
      cells := cells + [PrevMonthDay(daysInPrevMonth - i)];
      i := i - 1;
    }
    assert cells + [] == cells;
  }

  /** The second loop: one day cell for each day of the month, after `leading`. */
  method AppendMonthDays(leading: seq<GridCell>, events: seq<Event>, year: int, month: int, today: Date, selected: Date,
                         daysInMonth: nat)
    returns (cells: seq<GridCell>)
    ensures cells == leading + MonthCells(events, year, month, today, selected, daysInMonth)
  {
    cells := leading;
    var day := 1;
    while day <= daysInMonth
      invariant 1 <= day <= daysInMonth + 1
      invariant cells == leading + MonthCells(events, year, month, today, selected, day - 1)
    {
      var cell := DayCell(events, year, month, day, today, selected);
      AppendOne(leading, MonthCells(events, year, month, today, selected, day - 1), cell);
      TabulateSnoc(DayCellOf(events, year, month, today, selected), day - 1);
      cells := cells + [cell];
      day := day + 1;
    }
  }

  /** The third loop: the next month's days 1 to `remainingCells`, after `current`. */
  method AppendNextMonthDays(current: seq<GridCell>, remainingCells: nat) returns (cells: seq<GridCell>)
    ensures cells == current + TrailingCells(remainingCells)
  {
    cells := current;
    var day := 1;
    while day <= remainingCells
      invariant 1 <= day <= remainingCells + 1
      invariant cells == current + TrailingCells(day - 1)
    {
      AppendOne(current, TrailingCells(day - 1), NextMonthDay(day));
      cells := cells + [NextMonthDay(day)];
      day := day + 1;
    }
  }

  // ---------------------------------------------------------------------------------------------
  // The page's state

  class ScheduleManager {
    var events: seq<Event>
    /** The id of the event open in the edit modal, or None (`null`). */
    var editingEventId: Option<int>

    /** `loadEvents`: the stored list, or the five samples dated today when nothing is stored. */
    constructor (stored: Option<seq<Event>>, today: Date)
      ensures events == if stored.Some? then stored.value else SampleEvents(today)
      ensures editingEventId == None
    {
      events := if stored.Some? then stored.value else SampleEvents(today);
      editingEventId := None;
    }

    /** `openAddModal`: leaves edit mode and returns the form's defaults for the selected day. */
    method OpenAddModal(selected: Date) returns (form: EventData)
      modifies this
      ensures editingEventId == None && events == old(events)
      ensures form == EventData("", selected, "09:00", "1 hour", "other")
    {
      editingEventId := None;
      form := EventData("", selected, "09:00", "1 hour", "other");
    }

    /** `openEditModal`: finds the first event with the id; when there is none nothing changes. */
    method OpenEditModal(eventId: int) returns (found: Option<Event>)
      modifies this
      ensures events == old(events)
      ensures found.Some? <==> exists i :: 0 <= i < |events| && events[i].id == eventId
      ensures found.Some? ==> found.value in events && found.value.id == eventId && editingEventId == Some(eventId)
      ensures found.Some? ==>
                exists i :: 0 <= i < |events| && events[i] == found.value && forall k :: 0 <= k < i ==> events[k].id != eventId
      ensures found.None? ==> editingEventId == old(editingEventId)
    {
      var idx := FindIndex(events, e => HasId(e, eventId));
      if idx.None? {
        found := None;
        return;
      }
      found := Some(events[idx.value]);
      editingEventId := Some(eventId);
    }

    /** `closeModal`. */
    method CloseModal()
      modifies this
      ensures editingEventId == None && events == old(events)
    {
      editingEventId := None;
    }

    /** `saveEvent`: updates the event being edited, or creates a new one, then closes the modal. */
    method SaveEvent(d: EventData)
      modifies this
      ensures editingEventId == None
      ensures IsEditing(old(editingEventId)) ==> events == Updated(old(events), old(editingEventId).value, d)
      ensures !IsEditing(old(editingEventId)) ==> events == Created(old(events), d)
    {
      if IsEditing(editingEventId) {
        var id := editingEventId.value;
        var idx := FindIndex(events, e => HasId(e, id));
        if idx.Some? {
          events := events[idx.value := WithData(events[idx.value], d)];
        }
      } else {
        var newId := MaxId(events) + 1;
        events := events + [Event(newId, d.title, d.date, d.time, d.duration, d.category)];
      }
      CloseModal();
    }

    /** `deleteEvent`: outside edit mode nothing happens; otherwise, once confirmed, the edited id goes. */
    method DeleteEvent(confirmed: bool)
      modifies this
      ensures !IsEditing(old(editingEventId)) || !confirmed ==>
                events == old(events) && editingEventId == old(editingEventId)
      ensures IsEditing(old(editingEventId)) && confirmed ==>
                events == Deleted(old(events), old(editingEventId).value) && editingEventId == None
    {
      if !IsEditing(editingEventId) {
        return;
      }
      if confirmed {
        var id := editingEventId.value;
        events := Filter(events, e => !HasId(e, id));
        CloseModal();
      }
    }
  }
}

=== FILE: settings.dfy ===
/**
 * The settings page (settings.js): the light/dark palette, the PIN reset by e-mailed code, the
 * backup export with the PIN masked, and the guarded "clear all data".
 */
module Settings {
  import opened Base
  import opened Text
  import opened Storage

  /** The PIN the page starts with. */
  const DefaultPin := "0315"
  /** What the export writes in place of the PIN. */
  const HiddenPin := "***HIDDEN***"
  /** The word the user types to enable "clear all data". */
  const DeleteWord := "DELETE"

  // ---------------------------------------------------------------------------------------------
  // Theme

  /** The CSS custom properties a theme sets on the document root. */
  const ThemeVariables: set<string> :=
    {"--bg-primary", "--bg-secondary", "--bg-tertiary", "--text-primary", "--text-secondary", "--text-muted", "--border-color"}

  const LightPalette: map<string, string> := map[
    "--bg-primary" := "#f5f5f5", "--bg-secondary" := "#ffffff", "--bg-tertiary" := "#e8e8e8",
    "--text-primary" := "#1a1a2e", "--text-secondary" := "#4a4a5a", "--text-muted" := "#7a7a8a",
    "--border-color" := "#d0d0e0"]

  const DarkPalette: map<string, string> := map[
    "--bg-primary" := "#0a0a0f", "--bg-secondary" := "#12121a", "--bg-tertiary" := "#1a1a2e",
    "--text-primary" := "#ffffff", "--text-secondary" := "#a0a0b0", "--text-muted" := "#606070",
    "--border-color" := "#2a2a3e"]

  /** The theme to apply on load: the stored one, "dark" when none (or an empty one) is stored. */
  function StoredTheme(store: Store): (theme: string)
    ensures theme != ""
    ensures ThemeKey !in store ==> theme == "dark"
    ensures ThemeKey in store && store[ThemeKey] != "" ==> theme == store[ThemeKey]
  {
    ItemOr(store, ThemeKey, "dark")
  }

  /** `applyTheme`'s choice: "light" gets the light palette, every other name the dark one. */
  function Palette(theme: string): (vars: map<string, string>)
    ensures vars.Keys == ThemeVariables
    ensures vars == LightPalette <==> theme == "light"
    ensures vars == DarkPalette <==> theme != "light"
  {
    assert LightPalette["--bg-primary"] != DarkPalette["--bg-primary"];
    if theme == "light" then LightPalette else DarkPalette
  }

  /** Applying a theme overwrites every variable the other theme set, so no earlier theme shows through. */
  lemma ThemeLastWins(style: map<string, string>, first: string, second: string)
    ensures (style + Palette(first)) + Palette(second) == style + Palette(second)
  {
    var a, b := (style + Palette(first)) + Palette(second), style + Palette(second);
    assert a.Keys == b.Keys;
    forall k | k in a ensures a[k] == b[k] {
      if k in ThemeVariables {
        assert k in Palette(second);
      }
    }
  }

  /** A theme chosen on the page comes back on the next load: the empty name falls back to dark, as it showed. */
  lemma ThemeSurvivesReload(store: Store, theme: string)
    ensures Palette(StoredTheme(store[ThemeKey := theme])) == Palette(theme)
  {
  }

  // ---------------------------------------------------------------------------------------------
  // PIN reset

  /** `sendPinResetCode`'s check on the trimmed address: not empty and containing '@'. */
  predicate ValidEmail(input: string) {
    var email := Trim(input);
    email != "" && '@' in email
  }

  /** The verification code: `Math.floor(100000 + r * 900000)` printed, with `draw` the whole part of `r * 900000`. */
  function ResetCode(draw: nat): string
    requires draw < 900000
  {
    NatToString(100000 + draw)
  }

  /** The code is always six digits and reads back as the number drawn. */
  lemma ResetCodeShape(draw: nat)
    requires draw < 900000
    ensures |ResetCode(draw)| == 6 && AllDigits(ResetCode(draw))
    ensures ParseDigits(ResetCode(draw)) == 100000 + draw
  {
    assert Pow10(5) == 100000 && Pow10(6) == 1000000;
    PrintedLength(100000 + draw, 6);
    ParsePrinted(100000 + draw);
  }

  /** The PIN format check as written, `/^={4}$/`: four '=' signs. */
  function PinFormatAsWritten(pin: string): (ok: bool)
    ensures ok <==> pin == "===="
  {
    pin != "" && |pin| == 4 && forall i :: 0 <= i < |pin| ==> pin[i] == '='
  }

  /** The check as its error message states it: exactly four digits. */
  predicate PinFormat(pin: string) {
    |pin| == 4 && AllDigits(pin)
  }

  /** As written, no PIN of digits passes, the current default included; the intended check takes them all. */
  lemma DigitPinRejected(pin: string)
    requires PinFormat(pin)
    ensures !PinFormatAsWritten(pin)
    ensures PinFormat(DefaultPin) && !PinFormatAsWritten(DefaultPin)
  {
    assert IsDigit(pin[0]);
    assert DefaultPin[0] == '0';
  }

  /** What the PIN panel shows after an action. */
  datatype PinMessage =
    | InvalidEmail
    | CodeSent(email: string)
    | InvalidCode
    | BadPinFormat
    | PinMismatch
    | PinChanged
  {
    function Wording(): string {
      match this
      case InvalidEmail => "Please enter a valid email address"
      case CodeSent(email) => "Verification code sent to " + email
      case InvalidCode => "Invalid verification code"
      case BadPinFormat => "PIN must be exactly 4 digits"
      case PinMismatch => "PINs do not match"
      case PinChanged => "PIN changed successfully!"
    }

    predicate IsError() {
      this.InvalidEmail? || this.InvalidCode? || this.BadPinFormat? || this.PinMismatch?
    }
  }

  // ---------------------------------------------------------------------------------------------
  // Export and clearing

  datatype ExportedSettings = ExportedSettings(theme: string, pin: string)

  /**
   * The backup file's content; each collection is kept as the stored JSON text, "[]" or "{}" when
   * nothing is stored.
   */
  datatype Backup = Backup(
    exportDate: string, events: string, checklists: string, timeLogs: string,
    progress: string, notes: string, settings: ExportedSettings)

  /** `exportData`'s object for the store at hand and the export instant. */
  function Export(store: Store, exportDate: string): (b: Backup)
    ensures b.settings.pin == HiddenPin
    ensures b.settings.theme == StoredTheme(store)
    ensures b.exportDate == exportDate
    ensures b.events == (if EventsKey in store && store[EventsKey] != "" then store[EventsKey] else "[]")
    ensures b.notes == (if NotesKey in store && store[NotesKey] != "" then store[NotesKey] else "[]")
    ensures b.checklists == (if ChecklistsKey in store && store[ChecklistsKey] != "" then store[ChecklistsKey] else "{}")
    ensures b.timeLogs == (if TimeLogsKey in store && store[TimeLogsKey] != "" then store[TimeLogsKey] else "[]")
    ensures b.progress == (if ProgressKey in store && store[ProgressKey] != "" then store[ProgressKey] else "{}")
  {
    Backup(exportDate,
      ItemOr(store, EventsKey, "[]"), ItemOr(store, ChecklistsKey, "{}"), ItemOr(store, TimeLogsKey, "[]"),
      ItemOr(store, ProgressKey, "{}"), ItemOr(store, NotesKey, "[]"),
      ExportedSettings(StoredTheme(store), HiddenPin))
  }

  /** The backup does not depend on the stored PIN at all: two stores differing only there export alike. */
  lemma ExportIgnoresPin(store: Store, pin: string, exportDate: string)
    ensures Export(store[PinKey := pin], exportDate) == Export(store - {PinKey}, exportDate)
  {
    var with, without := store[PinKey := pin], store - {PinKey};
    forall k | k != PinKey ensures ItemOr(with, k, "") == ItemOr(without, k, "") {
    }
    assert forall k, f :: k != PinKey ==> ItemOr(with, k, f) == ItemOr(without, k, f);
  }

  /** The keys "clear all data" removes. */
  const ClearedKeys: seq<string> := [EventsKey, ChecklistsKey, TimeLogsKey, ProgressKey, NotesKey, ThemeKey, PinKey]

  /** The confirm button is enabled only for the exact word, case and spacing included. */
  predicate DeleteConfirmEnabled(input: string) {
    input == DeleteWord
  }

  /** The store once the listed keys are gone: those seven are missing and every other entry is kept. */
  function Cleared(store: Store): (r: Store)
    ensures forall k :: k in r <==> k in store && k !in ClearedKeys
    ensures forall k :: k in r ==> r[k] == store[k]
  {
    store - (set k | k in ClearedKeys)
  }

  /** After clearing, the page loads dark and the PIN falls back to the default (the lock screen's too). */
  lemma ClearedFallsBack(store: Store)
    ensures StoredTheme(Cleared(store)) == "dark"
    ensures ItemOr(Cleared(store), PinKey, DefaultPin) == DefaultPin
  {
    assert ThemeKey in ClearedKeys && PinKey in ClearedKeys;
  }

  // ---------------------------------------------------------------------------------------------
  // The page

  class SettingsManager {
    var currentPin: string
    /** The code sent by e-mail, None (`null`) before any was sent. */
    var resetCode: Option<string>
    var resetEmail: Option<string>
    /** `localStorage`. */
    var store: Store
    /** The CSS custom properties set on the document root. */
    var style: map<string, string>

    /** The constructor and `init`'s `loadTheme`: the default PIN, no code, the stored theme applied. */
    constructor (stored: Store, initialStyle: map<string, string>)
      ensures currentPin == DefaultPin && resetCode == None && resetEmail == None
      ensures store == stored
      ensures style == initialStyle + Palette(StoredTheme(stored))
    {
      currentPin := DefaultPin;
      resetCode := None;
      resetEmail := None;
      store := stored;
      style := initialStyle + Palette(StoredTheme(stored));
    }

    /** `applyTheme`. */
    method ApplyTheme(theme: string)
      modifies this
      ensures style == old(style) + Palette(theme)
      ensures store == old(store) && currentPin == old(currentPin)
      ensures resetCode == old(resetCode) && resetEmail == old(resetEmail)
    {
      style := style + Palette(theme);
    }

    /** `loadTheme`. */
    method LoadTheme()
      modifies this
      ensures style == old(style) + Palette(StoredTheme(old(store)))
      ensures store == old(store) && currentPin == old(currentPin)
      ensures resetCode == old(resetCode) && resetEmail == old(resetEmail)
    {
      ApplyTheme(StoredTheme(store));
    }

    /** `changeTheme`: applies the theme and stores its name. */
    method ChangeTheme(theme: string)
      modifies this
      ensures style == old(style) + Palette(theme)
      ensures store == old(store)[ThemeKey := theme]
      ensures currentPin == old(currentPin) && resetCode == old(resetCode) && resetEmail == old(resetEmail)
    {
      ApplyTheme(theme);
      store := store[ThemeKey := theme];
    }

    /** `sendPinResetCode`: a bad address changes nothing; a good one gets a fresh code. */
    method SendPinResetCode(emailInput: string, draw: nat) returns (msg: PinMessage)
      requires draw < 900000
      modifies this
      ensures !ValidEmail(emailInput) ==> msg == InvalidEmail && resetCode == old(resetCode) && resetEmail == old(resetEmail)
      ensures ValidEmail(emailInput) ==>
                && msg == CodeSent(Trim(emailInput))
                && resetCode == Some(ResetCode(draw))
                && resetEmail == Some(Trim(emailInput))
      ensures currentPin == old(currentPin) && store == old(store) && style == old(style)
    {
      var email := Trim(emailInput);
      if email == "" || '@' !in email {
        msg := InvalidEmail;
        return;
      }
      resetCode := Some(ResetCode(draw));
      resetEmail := Some(email);
      msg := CodeSent(email);
    }

    /**
     * `verifyAndChangePin` as written: the code, then the PIN format `/^={4}$/`, then the
     * confirmation; the first failing check reports and changes nothing. On success the PIN is both
     * current and stored, and the only PIN that gets there is "====".
     */
    method VerifyAndChangePin(codeInput: string, pinInput: string, confirmInput: string) returns (msg: PinMessage)
      modifies this
      ensures msg == InvalidCode <==> old(resetCode) != Some(Trim(codeInput))
      ensures msg == BadPinFormat <==> old(resetCode) == Some(Trim(codeInput)) && !PinFormatAsWritten(Trim(pinInput))
      ensures msg == PinMismatch <==>
                old(resetCode) == Some(Trim(codeInput)) && PinFormatAsWritten(Trim(pinInput)) && Trim(pinInput) != Trim(confirmInput)
      ensures msg == PinChanged <==>
                old(resetCode) == Some(Trim(codeInput)) && Trim(pinInput) == "====" && Trim(confirmInput) == "===="
      ensures msg == PinChanged ==> currentPin == "====" && store == old(store)[PinKey := "===="]
      ensures msg != PinChanged ==> currentPin == old(currentPin) && store == old(store)
      ensures resetCode == old(resetCode) && resetEmail == old(resetEmail) && style == old(style)
    {
      var enteredCode := Trim(codeInput);
      var newPin := Trim(pinInput);
      var confirmPin := Trim(confirmInput);
      if resetCode != Some(enteredCode) {
        return InvalidCode;
      }
      if newPin == "" || |newPin| != 4 || !PinFormatAsWritten(newPin) {
        return BadPinFormat;
      }
      if newPin != confirmPin {
        return PinMismatch;
      }
      currentPin := newPin;
      store := store[PinKey := newPin];
      msg := PinChanged;
    }

    /**
     * `verifyAndChangePin` with the format check its message describes, four digits: every
     * four-digit PIN that is typed twice becomes current and stored.
     */
    method VerifyAndChangePinIntended(codeInput: string, pinInput: string, confirmInput: string) returns (msg: PinMessage)
      modifies this
      ensures msg == InvalidCode <==> old(resetCode) != Some(Trim(codeInput))
      ensures msg == BadPinFormat <==> old(resetCode) == Some(Trim(codeInput)) && !PinFormat(Trim(pinInput))
      ensures msg == PinMismatch <==>
                old(resetCode) == Some(Trim(codeInput)) && PinFormat(Trim(pinInput)) && Trim(pinInput) != Trim(confirmInput)
      ensures msg == PinChanged <==>
                old(resetCode) == Some(Trim(codeInput)) && PinFormat(Trim(pinInput)) && Trim(pinInput) == Trim(confirmInput)
      ensures msg == PinChanged ==> currentPin == Trim(pinInput) && store == old(store)[PinKey := Trim(pinInput)]
      ensures msg != PinChanged ==> currentPin == old(currentPin) && store == old(store)
      ensures resetCode == old(resetCode) && resetEmail == old(resetEmail) && style == old(style)
    {
      var enteredCode := Trim(codeInput);
      var newPin := Trim(pinInput);
      var confirmPin := Trim(confirmInput);
      if resetCode != Some(enteredCode) {
        return InvalidCode;
      }
      if !PinFormat(newPin) {
        return BadPinFormat;
      }
      if newPin != confirmPin {
        return PinMismatch;
      }
      currentPin := newPin;
      store := store[PinKey := newPin];
      msg := PinChanged;
    }

    /** `confirmClearData`: without the exact word nothing happens; with it the seven keys go, one at a time. */
    method ConfirmClearData(input: string) returns (cleared: bool)
      modifies this
      ensures cleared <==> DeleteConfirmEnabled(input)
      ensures store == if cleared then Cleared(old(store)) else old(store)
      ensures currentPin == old(currentPin) && resetCode == old(resetCode)
      ensures resetEmail == old(resetEmail) && style == old(style)
    {
      if input != DeleteWord {
        return false;
      }
      var i := 0;
      while i < |ClearedKeys|
        invariant 0 <= i <= |ClearedKeys|
        invariant store == old(store) - (set k | k in ClearedKeys[..i])
        invariant currentPin == old(currentPin) && resetCode == old(resetCode)
        invariant resetEmail == old(resetEmail) && style == old(style)
      {
        assert ClearedKeys[..i + 1] == ClearedKeys[..i] + [ClearedKeys[i]];
        store := store - {ClearedKeys[i]};
        i := i + 1;
      }
      assert ClearedKeys[..i] == ClearedKeys;
      cleared := true;
    }
  }

  /**
   * With the code that was sent, a four-digit PIN typed twice is refused by the page as written
   * and taken by the intended check.
   */
  method DigitPinOnBothPages(pin: string, draw: nat, stored: Store) returns (asWritten: PinMessage, intended: PinMessage)
    requires draw < 900000
    requires PinFormat(pin)
    ensures asWritten == BadPinFormat && intended == PinChanged
  {
    DigitPinRejected(pin);
    TrimOfDigits(pin);
    var email := "a@b";
    assert ValidEmail(email) by {
      TrimOfTrimmed(email);
    }
    var page := new SettingsManager(stored, map[]);
    var sent := page.SendPinResetCode(email, draw);
    var code := ResetCode(draw);
    TrimOfDigits(code);
    asWritten := page.VerifyAndChangePin(code, pin, pin);
    intended := page.VerifyAndChangePinIntended(code, pin, pin);
  }

  /** Before any code has been sent, verification fails whatever is typed, and the PIN stays. */
  method NoCodeNoChange(codeInput: string, pinInput: string, confirmInput: string, stored: Store)
    returns (msg: PinMessage, pin: string)
    ensures msg == InvalidCode && pin == DefaultPin
  {
    var page := new SettingsManager(stored, map[]);
    msg := page.VerifyAndChangePin(codeInput, pinInput, confirmInput);
    pin := page.currentPin;
  }
}

=== FILE: sorting.dfy ===
/**
 * JavaScript's `Array.prototype.sort` with a comparator, as an insertion sort that places each
 * element after those it does not precede. The contracts state that the result is sorted and a
 * rearrangement of the input; `le(a, b)` means the comparator does not put `b` before `a`.
 */
module Sorting {

  /** `le` is total and transitive on the elements of `s`. */
  ghost predicate PreorderOn<T>(s: seq<T>, le: (T, T) -> bool) {
    && (forall i, j :: 0 <= i < |s| && 0 <= j < |s| ==> le(s[i], s[j]) || le(s[j], s[i]))
    && (forall i, j, k :: 0 <= i < |s| && 0 <= j < |s| && 0 <= k < |s| && le(s[i], s[j]) && le(s[j], s[k]) ==> le(s[i], s[k]))
  }

  predicate Sorted<T>(s: seq<T>, le: (T, T) -> bool) {
    forall i, j :: 0 <= i < j < |s| ==> le(s[i], s[j])
  }

  lemma SortedPrefix<T>(s: seq<T>, le: (T, T) -> bool, n: nat)
    requires Sorted(s, le) && n <= |s|
    ensures Sorted(s[..n], le)
  {
  }

  /** Puts `x` in front of the first element it does not come after. */
  function Insert<T(!new)>(x: T, s: seq<T>, le: (T, T) -> bool): (r: seq<T>)
    ensures forall y {:trigger multiset(r)[y]} :: multiset(r)[y] == multiset(s)[y] + (if y == x then 1 else 0)
    ensures |r| == |s| + 1
  {
    if s == [] then [x]
    else if le(x, s[0]) then [x] + s
    else
      assert s == [s[0]] + s[1..];
      [s[0]] + Insert(x, s[1..], le)
  }

  lemma {:induction false} InsertSorted<T(!new)>(x: T, s: seq<T>, le: (T, T) -> bool)
    requires PreorderOn([x] + s, le)
    requires Sorted(s, le)
    ensures Sorted(Insert(x, s, le), le)
  {
    var xs := [x] + s;
    if s == [] {
    } else if le(x, s[0]) {
      var r := [x] + s;
      forall i, j | 0 <= i < j < |r| ensures le(r[i], r[j]) {
        if i == 0 && j > 1 {
          assert xs[0] == x && xs[1] == s[0] && xs[j] == s[j - 1];
          assert le(s[0], s[j - 1]);
        }
      }
    } else {
      var t := s[1..];
      PreorderWithoutSecond(x, s, le);
      InsertSorted(x, t, le);
      assert le(s[0], x) by { assert xs[0] == x && xs[1] == s[0]; }
      forall m | 0 <= m < |t| ensures le(s[0], t[m]) {
        assert t[m] == s[m + 1];
      }
      InsertAbove(x, t, le, s[0]);
      assert Insert(x, s, le) == [s[0]] + Insert(x, t, le);
    }
  }

  /** Leaving out the second element keeps the preorder. */
  lemma PreorderWithoutSecond<T>(x: T, s: seq<T>, le: (T, T) -> bool)
    requires s != [] && PreorderOn([x] + s, le)
    ensures PreorderOn([x] + s[1..], le)
  {
    var xs, ys := [x] + s, [x] + s[1..];
    assert forall i :: 0 <= i < |ys| ==> ys[i] == xs[if i == 0 then 0 else i + 1];
  }

  /** An element that comes no later than `x` and every element of `s` comes no later than anything in the insertion. */
  lemma InsertAbove<T(!new)>(x: T, s: seq<T>, le: (T, T) -> bool, a: T)
    requires le(a, x) && forall m :: 0 <= m < |s| ==> le(a, s[m])
    ensures forall j :: 0 <= j < |Insert(x, s, le)| ==> le(a, Insert(x, s, le)[j])
  {
    var r := Insert(x, s, le);
    forall j | 0 <= j < |r| ensures le(a, r[j]) {
      var y := r[j];
      assert y in multiset(r);
      if y != x {
        assert y in multiset(s);
        var m :| 0 <= m < |s| && s[m] == y;
      }
    }
  }

  /** The insertion sort of `s` under `le`: sorted, and a rearrangement of `s`. */
  function SortBy<T(!new)>(s: seq<T>, le: (T, T) -> bool): (r: seq<T>)
    requires PreorderOn(s, le)
    ensures forall y {:trigger multiset(r)[y]} :: multiset(r)[y] == multiset(s)[y]
    ensures |r| == |s|
    ensures Sorted(r, le)
  {
    if s == [] then []
    else
      var t := s[1..];
      assert s == [s[0]] + t;
      PreorderOnTail(s, le);
      var sorted := SortBy(t, le);
      assert PreorderOn([s[0]] + sorted, le) by {
        PreorderOnPermutation(s, [s[0]] + sorted, le);
      }
      InsertSorted(s[0], sorted, le);
      Insert(s[0], sorted, le)
  }

  /** Leaving out the first element keeps the preorder. */
  lemma PreorderOnTail<T>(s: seq<T>, le: (T, T) -> bool)
    requires s != [] && PreorderOn(s, le)
    ensures PreorderOn(s[1..], le)
  {
    var t := s[1..];
    assert forall i :: 0 <= i < |t| ==> t[i] == s[i + 1];
  }

  /** Being a preorder on a collection depends only on which elements it holds. */
  lemma PreorderOnPermutation<T>(s: seq<T>, t: seq<T>, le: (T, T) -> bool)
    requires PreorderOn(s, le)
    requires multiset(t) == multiset(s)
    ensures PreorderOn(t, le)
  {
    forall i | 0 <= i < |t| ensures exists m :: 0 <= m < |s| && s[m] == t[i] {
      assert t[i] in multiset(s);
    }
  }
}

=== FILE: storage.dfy ===
/**
 * The browser's `localStorage` as the pages share it: a map from key to stored string. The keys are
 * the ones the settings page exports and clears.
 */
module Storage {
  import opened Base

  type Store = map<string, string>

  const EventsKey := "nest_events"
  const ChecklistsKey := "nest_checklists"
  const TimeLogsKey := "nest_timelogs"
  const ProgressKey := "nest_progress"
  const NotesKey := "nest_notes"
  const ThemeKey := "nest_theme"
  const PinKey := "nest_pin"

  /** `localStorage.getItem(key)`: None stands for `null`. */
  function GetItem(store: Store, key: string): Option<string> {
    if key in store then Some(store[key]) else None
  }

  /** `localStorage.getItem(key) || fallback`: a missing item and an empty one both give the fallback. */
  function ItemOr(store: Store, key: string, fallback: string): string {
    if key in store && store[key] != "" then store[key] else fallback
  }
}

=== FILE: text.dfy ===
/** The string operations the pages use: JavaScript's trim, \s, code-unit comparison and number printing. */
module Text {
  import opened Base

  /** The characters that JavaScript's `trim` removes and that the regex class `\s` matches. */
  predicate IsSpace(c: char) {
    || c == ' ' || c == '\t' || c == '\n' || c == '\r' || c == '\U{000B}' || c == '\U{000C}'
    || c == '\U{00A0}' || c == '\U{1680}' || ('\U{2000}' <= c <= '\U{200A}')
    || c == '\U{2028}' || c == '\U{2029}' || c == '\U{202F}' || c == '\U{205F}'
    || c == '\U{3000}' || c == '\U{FEFF}'
  }

  predicate IsBlank(s: string) {
    forall i :: 0 <= i < |s| ==> IsSpace(s[i])
  }

  /** Drops leading white space. */
  function TrimStart(s: string): string {
    if s != [] && IsSpace(s[0]) then TrimStart(s[1..]) else s
  }

  /** What `TrimStart` leaves is a suffix of `s` that does not start with white space, and all it dropped was white space. */
  lemma {:induction false} TrimStartShape(s: string)
    ensures var r := TrimStart(s);
      && |r| <= |s| && r == s[|s| - |r|..]
      && (forall i :: 0 <= i < |s| - |r| ==> IsSpace(s[i]))
      && (r == [] || !IsSpace(r[0]))
  {
    if s != [] && IsSpace(s[0]) {
      var t, r := s[1..], TrimStart(s[1..]);
      TrimStartShape(t);
      assert t[|t| - |r|..] == s[|s| - |r|..];
      forall i | 0 <= i < |s| - |r| ensures IsSpace(s[i]) {
        if i > 0 {
          assert s[i] == t[i - 1];
        }
      }
    }
  }

  /** Drops trailing white space. */
  function TrimEnd(s: string): string {
    if s != [] && IsSpace(s[|s| - 1]) then TrimEnd(s[..|s| - 1]) else s
  }

  /** What `TrimEnd` leaves is a prefix of `s` that does not end with white space, and all it dropped was white space. */
  lemma {:induction false} TrimEndShape(s: string)
    ensures var r := TrimEnd(s);
      && |r| <= |s| && r == s[..|r|]
      && (forall i :: |r| <= i < |s| ==> IsSpace(s[i]))
      && (r == [] || !IsSpace(r[|r| - 1]))
  {
    if s != [] && IsSpace(s[|s| - 1]) {
      var t, r := s[..|s| - 1], TrimEnd(s[..|s| - 1]);
      TrimEndShape(t);
      assert t[..|r|] == s[..|r|];
      forall i | |r| <= i < |s| ensures IsSpace(s[i]) {
        if i < |s| - 1 {
          assert s[i] == t[i];
        }
      }
    }
  }

  /** JavaScript's `String.prototype.trim`. */
  function Trim(s: string): (r: string)
    ensures r == [] || (!IsSpace(r[0]) && !IsSpace(r[|r| - 1]))
    ensures r == [] <==> IsBlank(s)
  {
    TrimStartShape(s);
    TrimEndShape(TrimStart(s));
    TrimEnd(TrimStart(s))
  }

  lemma TrimOfTrimmed(s: string)
    requires s == [] || (!IsSpace(s[0]) && !IsSpace(s[|s| - 1]))
    ensures Trim(s) == s
  {
  }

  /** A string of digits has no white space to trim. */
  lemma TrimOfDigits(s: string)
    requires AllDigits(s)
    ensures Trim(s) == s
  {
    if s != [] {
      assert IsDigit(s[0]) && IsDigit(s[|s| - 1]);
      TrimOfTrimmed(s);
    }
  }

  /** Code-unit lexicographic order, the order of JavaScript's `<=` on strings. */
  predicate LexLe(a: string, b: string) {
    if a == [] then true
    else if b == [] then false
    else if a[0] != b[0] then a[0] < b[0]
    else LexLe(a[1..], b[1..])
  }

  lemma {:induction false} LexLeTotal(a: string, b: string)
    ensures LexLe(a, b) || LexLe(b, a)
  {
    if a != [] && b != [] && a[0] == b[0] {
      LexLeTotal(a[1..], b[1..]);
    }
  }

  lemma {:induction false} LexLeTransitive(a: string, b: string, c: string)
    requires LexLe(a, b) && LexLe(b, c)
    ensures LexLe(a, c)
  {
    if a != [] && b != [] && c != [] && a[0] == b[0] == c[0] {
      LexLeTransitive(a[1..], b[1..], c[1..]);
    }
  }

  lemma {:induction false} LexLeAntisymmetric(a: string, b: string)
    requires LexLe(a, b) && LexLe(b, a)
    ensures a == b
  {
    if a != [] && b != [] {
      LexLeAntisymmetric(a[1..], b[1..]);
      assert a == [a[0]] + a[1..] && b == [b[0]] + b[1..];
    }
  }

  /** Whether a non-empty string lies between "0" and "9" in code-unit order depends on its first character only. */
  lemma DigitRangeByFirst(s: string)
    requires s != []
    ensures (LexLe("0", s) && LexLe(s, "9")) <==> ('0' <= s[0] <= '9' && (s[0] == '9' ==> s == "9"))
  {
    assert LexLe("0", s) <==> '0' <= s[0] by {
      assert "0"[0] == '0' && "0"[1..] == [];
    }
    assert LexLe(s, "9") <==> s[0] < '9' || (s[0] == '9' && |s| == 1) by {
      assert "9"[0] == '9' && "9"[1..] == [];
    }
    if s[0] == '9' && |s| == 1 {
      assert s == "9";
    }
  }

  predicate IsDigit(c: char) { '0' <= c <= '9' }

  predicate AllDigits(s: string) {
    forall i :: 0 <= i < |s| ==> IsDigit(s[i])
  }

  function DigitChar(d: nat): (c: char)
    requires d < 10
    ensures IsDigit(c)
  {
    "0123456789"[d]
  }

  function DigitValue(c: char): (d: nat)
    requires IsDigit(c)
    ensures d < 10 && DigitChar(d) == c
  {
    c as int - '0' as int
  }

  /** The decimal value of a string of digits. */
  function ParseDigits(s: string): nat
    requires AllDigits(s)
  {
    if s == [] then 0 else 10 * ParseDigits(s[..|s| - 1]) + DigitValue(s[|s| - 1])
  }

  /** `String(n)` for a non-negative integer: its shortest decimal form. */
  function NatToString(n: nat): (s: string)
    ensures s != [] && AllDigits(s)
    ensures |s| > 1 ==> s[0] != '0'
  {
    if n < 10 then [DigitChar(n)] else NatToString(n / 10) + [DigitChar(n % 10)]
  }

  /** Printing a number and reading it back gives the number. */
  lemma {:induction false} ParsePrinted(n: nat)
    ensures ParseDigits(NatToString(n)) == n
  {
    if n >= 10 {
      var s := NatToString(n);
      assert s[..|s| - 1] == NatToString(n / 10);
      ParsePrinted(n / 10);
    }
  }

  /** The number of decimal digits of `n` is `k` exactly when `n` lies in [10^(k-1), 10^k). */
  lemma {:induction false} PrintedLength(n: nat, k: nat)
    requires 1 <= k && (k == 1 || Pow10(k - 1) <= n) && n < Pow10(k)
    ensures |NatToString(n)| == k
  {
    if k > 1 {
      Pow10Grows(k - 1);
      PrintedLength(n / 10, k - 1);
    }
  }

  function Pow10(k: nat): (p: nat)
    ensures p >= 1
  {
    if k == 0 then 1 else 10 * Pow10(k - 1)
  }

  lemma {:induction false} Pow10Grows(k: nat)
    requires k >= 1
    ensures Pow10(k) >= 10
  {
    if k > 1 { Pow10Grows(k - 1); }
  }

  /** `String(i)` for any integer. */
  function IntToString(i: int): (s: string)
    ensures s != []
    ensures i >= 0 ==> s == NatToString(i)
    ensures i < 0 ==> s[0] == '-' && s[1..] == NatToString(-i)
  {
    if i < 0 then "-" + NatToString(-i) else NatToString(i)
  }

  /** `s.padStart(2, '0')`: strings of two or more characters are left alone. */
  function PadStart2(s: string): (r: string)
    ensures |r| == if |s| >= 2 then |s| else 2
    ensures r[|r| - |s|..] == s
    ensures forall i :: 0 <= i < |r| - |s| ==> r[i] == '0'
  {
    if |s| >= 2 then s else if |s| == 1 then "0" + s else "00"
  }

  /** The longest prefix of `s` made of digits. */
  function LeadingDigits(s: string): (r: string)
    ensures AllDigits(r) && |r| <= |s| && r == s[..|r|]
    ensures |r| < |s| ==> !IsDigit(s[|r|])
  {
    if s != [] && IsDigit(s[0]) then [s[0]] + LeadingDigits(s[1..]) else []
  }

  lemma {:induction false} LeadingDigitsOfDigits(s: string)
    requires AllDigits(s)
    ensures LeadingDigits(s) == s
  {
    if s != [] {
      LeadingDigitsOfDigits(s[1..]);
    }
  }

  /** The leading digits of digits followed by a non-digit are those digits. */
  lemma {:induction false} LeadingDigitsBefore(d: string, rest: string)
    requires AllDigits(d)
    requires rest == [] || !IsDigit(rest[0])
    ensures LeadingDigits(d + rest) == d
  {
    if d == [] {
      assert d + rest == rest;
    } else {
      assert (d + rest)[1..] == d[1..] + rest;
      LeadingDigitsBefore(d[1..], rest);
    }
  }

  /** `parseInt(s, 10)` for a string that starts with its digits; None stands for NaN. */
  function ParseLeadingInt(s: string): (r: Option<nat>)
    ensures r.None? <==> s == [] || !IsDigit(s[0])
  {
    var d := LeadingDigits(s);
    if d == [] then None else Some(ParseDigits(d))
  }

  /** The part of `s` before the first `c` (all of `s` when there is none). */
  function Before(s: string, c: char): (r: string)
    ensures |r| <= |s| && r == s[..|r|] && c !in r
    ensures |r| < |s| ==> s[|r|] == c
  {
    if s == [] || s[0] == c then [] else [s[0]] + Before(s[1..], c)
  }

  lemma {:induction false} BeforeAbsent(s: string, c: char)
    requires c !in s
    ensures Before(s, c) == s
  {
    if s != [] {
      BeforeAbsent(s[1..], c);
    }
  }

  lemma {:induction false} BeforeFirst(a: string, c: char, b: string)
    requires c !in a
    ensures Before(a + [c] + b, c) == a
    ensures After(a + [c] + b, c) == Some(b)
  {
    if a != [] {
      assert (a + [c] + b)[1..] == a[1..] + [c] + b;
      BeforeFirst(a[1..], c, b);
    }
  }

  /** The part of `s` after the first `c`, or None when `s` has no `c`. */
  function After(s: string, c: char): (r: Option<string>)
    ensures r.None? <==> c !in s
    ensures r.Some? ==> s == Before(s, c) + [c] + r.value
  {
    var b := Before(s, c);
    if |b| == |s| then None else Some(s[|b| + 1..])
  }

  predicate EndsWith(s: string, suffix: string) {
    |suffix| <= |s| && s[|s| - |suffix|..] == suffix
  }

  /** Lower-cases the ASCII letters A-Z and leaves every other character alone. */
  function AsciiLower(s: string): (r: string)
    ensures |r| == |s|
    ensures forall i :: 0 <= i < |s| ==> r[i] == if 'A' <= s[i] <= 'Z' then (s[i] as int + 32) as char else s[i]
  {
    if s == [] then [] else [if 'A' <= s[0] <= 'Z' then (s[0] as int + 32) as char else s[0]] + AsciiLower(s[1..])
  }
}

=== FILE: upload.dfy ===
/**
 * The PDF upload page (upload.js): picked files are filtered down to PDFs, each shown as an
 * "uploading" entry at the head of the list while a simulated progress bar fills, then replaced by
 * the stored record. The clock, the random part of the temporary id and the database's answers
 * are parameters.
 */
module Upload {
  import opened Base
  import opened Text
  import opened RelativeTime

  /** A file as the browser hands it over. */
  datatype PickedFile = PickedFile(name: string, size: int, mime: string)

  datatype Status = Uploading | Complete | Failed

  /**
   * An entry of the list. `id` is a number: `Date.now() + Math.random()` while uploading, the
   * database key once stored. `size`, `mime` and `progress` are None where the object has no such
   * field; `date` is an instant in milliseconds.
   */
  datatype FileEntry = FileEntry(
    id: real, name: string, size: Option<int>, mime: Option<string>,
    status: Status, progress: Option<int>, date: int)

  const PdfMime := "application/pdf"

  /** The drop and `handleFiles` filter: the PDF type, or a name ending in ".pdf" in any letter case. */
  predicate IsPdf(f: PickedFile) {
    f.mime == PdfMime || EndsWith(AsciiLower(f.name), ".pdf")
  }

  /** The files `handleFiles` uploads, in the order picked. */
  function PdfOnly(picked: seq<PickedFile>): (r: seq<PickedFile>)
    ensures forall f :: f in r <==> f in picked && IsPdf(f)
    ensures forall f {:trigger multiset(r)[f]} :: multiset(r)[f] == if IsPdf(f) then multiset(picked)[f] else 0
  {
    Filter(picked, IsPdf)
  }

  /** Only the last four characters of the name matter, and their letter case does not. */
  lemma PdfByLastFour(f: PickedFile)
    ensures IsPdf(f) <==> f.mime == PdfMime || (|f.name| >= 4 && AsciiLower(f.name[|f.name| - 4..]) == ".pdf")
  {
    var lower := AsciiLower(f.name);
    if |f.name| >= 4 {
      var tail := f.name[|f.name| - 4..];
      forall i | 0 <= i < 4 ensures AsciiLower(tail)[i] == lower[|lower| - 4..][i] {
        assert tail[i] == f.name[|f.name| - 4 + i];
      }
      assert AsciiLower(tail) == lower[|lower| - 4..];
    }
  }

  /** The entry shown while a file uploads. */
  function Placeholder(f: PickedFile, id: real, date: int): FileEntry {
    FileEntry(id, f.name, Some(f.size), None, Uploading, Some(0), date)
  }

  /** The stored record that replaces it: the metadata saved, the database's id, status complete. */
  function StoredRecord(f: PickedFile, savedId: real, date: int): FileEntry {
    FileEntry(savedId, f.name, Some(f.size), Some(f.mime), Complete, None, date)
  }

  predicate HasId(f: FileEntry, id: real) {
    f.id == id
  }

  /** `updateFileProgress` on the list: the first entry with the id gets the value, nothing else changes. */
  function WithProgress(files: seq<FileEntry>, id: real, progress: int): (r: seq<FileEntry>)
    ensures |r| == |files|
    ensures forall i :: 0 <= i < |r| ==> r[i] == files[i] || (files[i].id == id && r[i] == files[i].(progress := Some(progress)))
    ensures (forall i :: 0 <= i < |files| ==> files[i].id != id) ==> r == files
    ensures files != [] && files[0].id == id ==> r == [files[0].(progress := Some(progress))] + files[1..]
  {
    match FindIndex(files, f => HasId(f, id))
    case None => files
    case Some(i) => files[i := files[i].(progress := Some(progress))]
  }

  /** The entry that gets the progress is the first one with the id; every other entry stays as it was. */
  lemma WithProgressAtFirst(files: seq<FileEntry>, id: real, progress: int, i: int)
    requires 0 <= i < |files| && files[i].id == id
    requires forall k :: 0 <= k < i ==> files[k].id != id
    ensures WithProgress(files, id, progress) == files[i := files[i].(progress := Some(progress))]
  {
  }

  /** What the entry becomes once the upload ends: the stored record, or the placeholder marked failed. */
  function Finished(f: PickedFile, tempId: real, startDate: int, endDate: int, saved: Option<real>): FileEntry {
    match saved
    case Some(savedId) => StoredRecord(f, savedId, endDate)
    case None => Placeholder(f, tempId, startDate).(progress := Some(100), status := Failed)
  }

  /** `deleteFile` on the list: every entry with the id goes. */
  function WithoutFile(files: seq<FileEntry>, id: real): (r: seq<FileEntry>)
    ensures forall i :: 0 <= i < |r| ==> r[i].id != id
    ensures forall f: FileEntry :: f.id != id ==> multiset(r)[f] == multiset(files)[f]
  {
    var r := Filter(files, f => !HasId(f, id));
    forall i | 0 <= i < |r| ensures r[i].id != id {
      assert r[i] in r;
    }
    r
  }

  /** Deleting keeps the order: it works entry by entry, keeping exactly the entries with another id. */
  lemma WithoutFileKeepsOrder(a: seq<FileEntry>, b: seq<FileEntry>, id: real, f: FileEntry)
    ensures WithoutFile(a + b, id) == WithoutFile(a, id) + WithoutFile(b, id)
    ensures WithoutFile([f], id) == if f.id != id then [f] else []
  {
    FilterAppend(a, b, e => !HasId(e, id));
  }

  // ---------------------------------------------------------------------------------------------
  // Stats and dates

  /** `updateStats`' total: the sizes added from the front, a missing size counting 0. */
  function TotalSize(files: seq<FileEntry>): int {
    if files == [] then 0 else files[0].size.GetOr(0) + TotalSize(files[1..])
  }

  lemma {:induction false} TotalSizeAppend(a: seq<FileEntry>, b: seq<FileEntry>)
    ensures TotalSize(a + b) == TotalSize(a) + TotalSize(b)
  {
    if a != [] {
      assert (a + b)[1..] == a[1..] + b;
      TotalSizeAppend(a[1..], b);
    } else {
      assert a + b == b;
    }
  }

  /** The sizes of the entries with the id, added up. */
  function SizeOfId(files: seq<FileEntry>, id: real): int {
    if files == [] then 0 else (if files[0].id == id then files[0].size.GetOr(0) else 0) + SizeOfId(files[1..], id)
  }

  /** Deleting a file takes exactly the sizes of its entries off the total. */
  lemma {:induction false} DeleteShrinksTotal(files: seq<FileEntry>, id: real)
    ensures TotalSize(WithoutFile(files, id)) == TotalSize(files) - SizeOfId(files, id)
  {
    if files != [] {
      DeleteShrinksTotal(files[1..], id);
      var kept := if files[0].id != id then [files[0]] else [];
      assert WithoutFile(files, id) == kept + WithoutFile(files[1..], id);
      TotalSizeAppend(kept, WithoutFile(files[1..], id));
    }
  }

  datatype Stats = Stats(totalFiles: nat, totalSize: int, lastUpload: Option<int>)

  /** `updateStats`: the count, the size total and the date of the head entry, if any. */
  function StatsOf(files: seq<FileEntry>): (s: Stats)
    ensures s.totalFiles == |files|
    ensures s.totalSize == TotalSize(files)
    ensures s.lastUpload.Some? <==> files != []
    ensures files != [] ==> s.lastUpload == Some(files[0].date)
  {
    Stats(|files|, TotalSize(files), if files == [] then None else Some(files[0].date))
  }

  /** `formatDate`; None for dates a day old or more, which show a locale date instead. */
  function FormatDate(date: int, now: int): (text: Option<string>)
    ensures text.None? <==> now - date >= DayMs
    ensures text == Some("Just now") <==> now - date < MinuteMs
    ensures MinuteMs <= now - date < HourMs ==> text == Some(NatToString((now - date) / MinuteMs) + " min ago")
    ensures HourMs <= now - date < DayMs ==> text == Some(NatToString((now - date) / HourMs) + " hours ago")
  {
    match AgeOf(now - date)
    case JustNow => Some("Just now")
    case MinutesAgo(m) => Some(NatToString(m) + " min ago")
    case HoursAgo(h) => Some(NatToString(h) + " hours ago")
    case Older => None
  }

  // ---------------------------------------------------------------------------------------------
  // The page

  class UploadManager {
    var files: seq<FileEntry>

    /** The constructor and `loadFiles`: the database's list, or an empty one when loading fails. */
    constructor (loaded: Option<seq<FileEntry>>)
      ensures files == loaded.GetOr([])
    {
      files := loaded.GetOr([]);
    }

    /** `loadFiles`: the database's list replaces the shown one; a failed read keeps it. */
    method LoadFiles(loaded: Option<seq<FileEntry>>)
      modifies this
      ensures files == loaded.GetOr(old(files))
    {
      if loaded.Some? {
        files := loaded.value;
      }
    }

    /** `updateFileProgress`. */
    method UpdateFileProgress(id: real, progress: int)
      modifies this
      ensures files == WithProgress(old(files), id, progress)
    {
      var idx := FindIndex(files, f => HasId(f, id));
      if idx.Some? {
        files := files[idx.value := files[idx.value].(progress := Some(progress))];
      }
    }

    /**
     * `uploadFile`. The placeholder with `tempId` goes to the head of the list; the progress loop
     * reports 0, 10, ..., 100 (returned as `shown`); then the database answer `saved` (None when the
     * write fails) decides what the placeholder becomes. Nothing else in the list changes.
     */
    method UploadFile(f: PickedFile, tempId: real, startDate: int, endDate: int, saved: Option<real>)
      returns (shown: seq<int>)
      modifies this
      ensures shown == [0, 10, 20, 30, 40, 50, 60, 70, 80, 90, 100]
      ensures files == [Finished(f, tempId, startDate, endDate, saved)] + old(files)
    {
      var placeholder := Placeholder(f, tempId, startDate);
      files := [placeholder] + files;
      ghost var rest := old(files);
      shown := [];
      var progress := 0;
      while progress <= 100
        invariant 0 <= progress <= 110 && progress % 10 == 0
        invariant |shown| == progress / 10
        invariant forall k :: 0 <= k < |shown| ==> shown[k] == 10 * k
        invariant files == [placeholder.(progress := Some(if progress == 0 then 0 else progress - 10))] + rest
      {
        UpdateFileProgress(tempId, progress);
        shown := shown + [progress];
        progress := progress + 10;
      }
      var idx := FindIndex(files, e => HasId(e, tempId));
      assert idx == Some(0);
      if saved.Some? {
        files := files[idx.value := StoredRecord(f, saved.value, endDate)];
      } else {
        files := files[idx.value := files[idx.value].(status := Failed)];
      }
    }

    /** `deleteFile`: only when confirmed and once the database delete succeeds. */
    method DeleteFile(id: real, confirmed: bool, deleted: bool)
      modifies this
      ensures confirmed && deleted ==> files == WithoutFile(old(files), id)
      ensures !(confirmed && deleted) ==> files == old(files)
    {
      if !confirmed {
        return;
      }
      if deleted {
        files := WithoutFile(files, id);
      }
    }
  }

  /** A finished upload adds its file's size to the total, whether it was stored or failed. */
  lemma UploadAddsSize(files: seq<FileEntry>, f: PickedFile, tempId: real, startDate: int, endDate: int, saved: Option<real>)
    ensures TotalSize([Finished(f, tempId, startDate, endDate, saved)] + files) == TotalSize(files) + f.size
    ensures StatsOf([Finished(f, tempId, startDate, endDate, saved)] + files).totalFiles == |files| + 1
  {
    var l := [Finished(f, tempId, startDate, endDate, saved)] + files;
    assert l[1..] == files;
  }
}
